=== FILE: README.md ===
# smallCHIP-8 interpreter core in Dafny

This project models the CHIP-8 interpreter of the single-header library
`smallCHIP-8.h`. It covers:

- the interpreter state `sc8_state`;
- the field macros of the 16-bit opcode;
- the xorshift32 generator `sc8_xorRand`;
- `sc8_init`;
- the ROM and file loaders;
- one fetch-decode-execute-tick step `sc8_step`.

The semantics are those of the C code as written. Where the code departs from
Cowgod's *Chip-8 Technical Reference v1.0*, the model follows the code and
proves the consequences as lemmas:

- 8XY0-8XY3 combine VX with the nibble Y, not with VY.
- DXYN:
  - reads sprite rows from `memory[row]`, not from `memory[I + row]`;
  - addresses the display cell `(x + col) * ((y + row) * 64)`;
  - overwrites VF on every pixel.
- The stack slots are bytes, so CALL keeps `pc mod 256`. RET reads `stack[sp]` before it decrements `sp`.
- FX55 and FX65 move registers `0 .. X-1` and leave register X out.
- An unknown opcode of the 8 family adds 4 to `pc`.
- FXFF leaves `pc` in place.
- The shifts re-read VX after VF has been written.
- A timer set by FX15 or FX18 is counted down in the same step.

The project is split into these modules:

- `Bytes` (bytes.dfy): `uint8_t` and `uint16_t`, and the bit macros.
- `Opcode` (opcode.dfy): the fetch, the field macros, and the nested `switch` of `sc8_step` as a decoder `Decode` into the datatype `Instr`. It also has a canonical encoder and the round trip between the two.
- `XorRand` (xorrand.dfy): the generator. Its global word is the field of a `Generator` object.
- `Chip8Spec` (spec.dfy): the state as a value `State`. Each operation is a function on it: `Initial`, `Place`, `LoadedMemory`, `Execute` and `StepSpec`.
- `Chip8` (machine.dfy): the class `Machine`.
  - It holds the arrays and fields of `sc8_state` and updates them in place with loops as the C does.
  - Each of its instruction and step methods is proved to leave the state that the matching `Chip8Spec` function computes. The key refresh and the FX0A scan are proved against their own contracts.
- `RegisterLaws` (registers.dfy), `ControlLaws` (control.dfy) and `DisplayLaws` (display.dfy) hold the lemmas about the semantics.

Host collaborators:

- `sc8_updateKeyArray` is the `keys` argument of `Machine.Step`.
- `sc8_beep` increments the ghost counter `beeps`.
- `sc8_errprintf` does not affect the state.
- An opened file is an `Option<seq<u8>>`: `None` when `sc8_fopen` fails, otherwise the bytes `sc8_fread` would deliver.

C undefined behaviour becomes a precondition:

- the fetch needs `pc <= 4094`;
- CALL and RET need `sp < 16`;
- EX9E and EXA1 need `VX < 16`;
- FX33, FX55 and FX65 need their memory cells to exist;
- DXYN needs every cell index it computes to be below 2048;
- `sc8_loadRomPad` needs `origin >= 0` and its asserted size bound.

## Model

| member | source | states |
|---|---|---|
| Bytes.Bool8 | smallCHIP-8.h:342 | a C `bool` stored in a byte is 0 or 1, and 1 exactly when the condition holds |
| Bytes.Lsb | smallCHIP-8.h:41 | `SC8_LSB` is a bit, and it is the bit a halving drops: `b == 2 * (b / 2) + r` |
| Bytes.Msb | smallCHIP-8.h:42 | `SC8_MSB` of a byte is a bit, and it is the bit a doubling drops: `b == 128 * r + b % 128` |
| Bytes.Or8 | smallCHIP-8.h:330-332 | the bitwise OR of 8XY1 on bytes, computed through `bv8`; no contract of its own |
| Bytes.And8 | smallCHIP-8.h:333-335 | the bitwise AND of 8XY2 and the mask of CXKK on bytes, computed through `bv8`; no contract of its own |
| Bytes.Xor8 | smallCHIP-8.h:336-338 | the bitwise XOR of 8XY3 on bytes, computed through `bv8`; no contract of its own |
| Bytes.SpriteBit | smallCHIP-8.h:396 | pixel `col` of a sprite row is bit `7 - col`, so the leftmost pixel is the most significant bit; no contract of its own |
| Opcode.Fetch | smallCHIP-8.h:276 | the fetched word has `memory[pc]` as its high byte and `memory[pc + 1]` as its low byte |
| Opcode.Family | smallCHIP-8.h:282 | the top nibble that `opcode & 0xF000` selects; its meaning is stated by `Opcode.FieldsRecompose` |
| Opcode.X | smallCHIP-8.h:50 | `SC8_Vx`, the second nibble; stated by `Opcode.FieldsRecompose` and `Opcode.FieldsOf` |
| Opcode.Y | smallCHIP-8.h:51 | `SC8_Vy`, the third nibble; stated by `Opcode.FieldsRecompose` and `Opcode.FieldsOf` |
| Opcode.N | smallCHIP-8.h:48 | `SC8_N`, the low nibble; stated by `Opcode.FieldsRecompose` and `Opcode.FieldsOf` |
| Opcode.KK | smallCHIP-8.h:52 | `SC8_KK`, the low byte; `Opcode.FieldsRecompose` shows it is Y and N together |
| Opcode.NNN | smallCHIP-8.h:49 | `SC8_NNN`, the low 12 bits; `Opcode.FieldsRecompose` shows it is X and KK together |
| Opcode.Decode | smallCHIP-8.h:282-495 | the nested `switch` of `sc8_step` as a map from words to instructions; stated by `Opcode.DecodeEncode`, `Opcode.LooseDecoding` and `Opcode.UnknownFamilies` |
| Opcode.FieldsRecompose | smallCHIP-8.h:48-52 | the family, X, Y and N fields split the word without loss; KK and NNN are the low 8 and 12 bits built from the same fields |
| Opcode.FieldsOf | smallCHIP-8.h:48-52 | a word built from four nibbles gives them back through `SC8_Vx`, `SC8_Vy`, `SC8_N`, `SC8_KK` and `SC8_NNN` |
| Opcode.DecodeEncode | smallCHIP-8.h:282-495 | decoding the canonical word of every recognised instruction gives that instruction back |
| Opcode.DecodeEncodeCalls | smallCHIP-8.h:283-307 | the round trip for 00E0, 00EE, 1NNN and 2NNN |
| Opcode.DecodeEncodeImmediates | smallCHIP-8.h:308-324 | the round trip for 3XKK, 4XKK, 5XY0, 6XKK and 7XKK |
| Opcode.DecodeEncodeMiddle | smallCHIP-8.h:325-383 | the round trip for the 8XY_ operations, 9XY0, ANNN and BNNN |
| Opcode.DecodeEncodeDevices | smallCHIP-8.h:384-422 | the round trip for CXKK, DXYN, EX9E and EXA1 |
| Opcode.DecodeEncodeTimers | smallCHIP-8.h:423-453 | the round trip for FX07, FX0A, FX15, FX18 and FX1E |
| Opcode.DecodeEncodeStores | smallCHIP-8.h:454-480 | the round trip for FX29, FX33, FX55, FX65 and FXFF |
| Opcode.LooseDecoding | smallCHIP-8.h:282-376 | every 0__0 word is 00E0 and every 0__E word is 00EE; 5XY_ and 9XY_ ignore their low nibble |
| Opcode.UnknownFamilies | smallCHIP-8.h:282-495 | only the 0, 8, E and F families reach an "Unknown opcode" branch, so the outer `default` is dead |
| XorRand.Mix13 | smallCHIP-8.h:224 | the first shift-and-xor step of `sc8_xorRand`; no contract of its own |
| XorRand.Mix17 | smallCHIP-8.h:225 | the second shift-and-xor step; no contract of its own |
| XorRand.Mix5 | smallCHIP-8.h:226 | the third shift-and-xor step; no contract of its own |
| XorRand.XorShift | smallCHIP-8.h:223-228 | the successor of a generator word; `XorRand.XorShiftNonZero` is proved about it |
| XorRand.XorShiftNonZero | smallCHIP-8.h:221-227 | from a non-zero word the xorshift step never reaches zero |
| XorRand.LowByte | smallCHIP-8.h:385 | the `(uint8_t)` cast of a generator word is the word modulo 256 |
| XorRand.Generator.constructor | smallCHIP-8.h:221 | the generator starts at 305419896 |
| XorRand.Generator.Next | smallCHIP-8.h:223-228 | the word advances by shift-xor 13, 17 and 5, and the call returns the new word |
| Chip8Spec.Place | smallCHIP-8.h:241-261 | the ROM bytes land at `origin..origin + size` and every other byte of memory keeps its value |
| Chip8Spec.ReadCount | smallCHIP-8.h:263-273 | the loaders read the whole file, or stop at the end of memory, never past it |
| Chip8Spec.LoadOutcome | smallCHIP-8.h:263-273 | `fopenError` exactly when the file did not open; `OK` exactly when at least one byte was read |
| Chip8Spec.LoadedMemory | smallCHIP-8.h:263-273 | memory after `sc8_loadFilePad` keeps its size; the bytes it holds are stated by `ControlLaws.FileLoadTruncates` |
| Chip8Spec.Initial | smallCHIP-8.h:230-235 | the state `sc8_init` leaves is well formed; its contents are stated by `ControlLaws.InitialLayout` |
| Chip8Spec.AluResult | smallCHIP-8.h:326-364 | the 8XY_ family keeps sixteen registers; what each case leaves in VX and VF is stated by the `RegisterLaws` lemmas |
| Chip8Spec.Bcd | smallCHIP-8.h:459-463 | the three FX33 digits are each below 10 and spell VX in decimal |
| Chip8Spec.WriteBcd | smallCHIP-8.h:459-463 | the FX33 writes keep the memory size; the digits are stated by `RegisterLaws.BcdStoresDigits` |
| Chip8Spec.Dump | smallCHIP-8.h:466-470 | after the FX55 loop, `memory[I + k] == V[k]` for `k < X` and every other byte is unchanged |
| Chip8Spec.Restore | smallCHIP-8.h:472-476 | after the FX65 loop, `V[k] == memory[I + k]` for `k < X` and registers X..F are unchanged |
| Chip8Spec.TimesIsProduct | smallCHIP-8.h:397 | the repeated sum that addresses a display cell is the product `(x + col) * ((y + row) * 64)` |
| Chip8Spec.CellIndex | smallCHIP-8.h:397 | the display cell of a sprite pixel, `(x + col) * ((y + row) * 64)` as written; `Chip8Spec.TimesIsProduct` shows the repeated sum is that product |
| Chip8Spec.SpriteRows | smallCHIP-8.h:394 | DXYN reads its rows from `memory[0..N)`, not from I; no contract of its own |
| Chip8Spec.BlitRow | smallCHIP-8.h:395-400 | one row of pixels keeps the 2048-cell display; the cells it toggles are stated by `DisplayLaws.BlitRowParity` |
| Chip8Spec.FirstDown | smallCHIP-8.h:431-436 | the FX0A scan stops at a pressed key, and no key below it is pressed |
| Chip8Spec.Blit | smallCHIP-8.h:393-401 | drawing keeps the 2048-cell display; what each cell becomes is `DisplayLaws.BlitParity` |
| Chip8Spec.Execute | smallCHIP-8.h:282-495 | every instruction keeps the sizes of memory, display, keys, registers and stack; the effects are stated by the laws below and by `Chip8.Machine.Dispatch` |
| Chip8Spec.ExecuteControl | smallCHIP-8.h:283-307 | 00E0, 00EE, 1NNN, 2NNN, BNNN, FXFF and the unknown opcodes keep the array sizes; their effects are stated by the `ControlLaws` lemmas |
| Chip8Spec.ExecuteSkip | smallCHIP-8.h:308-415 | the six skips keep the array sizes; `ControlLaws.SkipMovesOnlyPc` states what they do |
| Chip8Spec.ExecuteMemory | smallCHIP-8.h:377-477 | ANNN, FX1E, FX29, DXYN, FX33, FX55 and FX65 keep the array sizes; their effects are stated by the laws of I, memory and the display |
| Chip8Spec.ExecuteRegister | smallCHIP-8.h:317-449 | 6XKK, 7XKK, 8XY_, CXKK, FX07, FX0A, FX15 and FX18 keep the array sizes; their effects are stated by the `RegisterLaws` lemmas |
| Chip8Spec.Tick | smallCHIP-8.h:497-503 | no timer rises, a running timer drops by exactly one, a timer at zero stays there, and nothing else changes |
| Chip8Spec.Defined | smallCHIP-8.h:290-476 | the undefined behaviour each instruction can meet, as a condition on the state: a stack index of 16 or more, a sprite cell past the display, a key index of 16 or more, an FX0A with no key down, a memory access past the end; no contract of its own |
| Chip8Spec.FetchedWord | smallCHIP-8.h:276 | the instruction word is big-endian: its high byte is `memory[pc]` and its low byte `memory[pc + 1]` |
| Chip8Spec.Next | smallCHIP-8.h:276-282 | the instruction decoded from the fetched word; no contract of its own |
| Chip8Spec.Fetched | smallCHIP-8.h:276-279 | the state after the fetch stored the word in `opcode` and the host refreshed the keys; no contract of its own |
| Chip8Spec.Ready | smallCHIP-8.h:276-279 | a step is defined when the fetch stays inside memory and the fetched instruction meets Chip8Spec.Defined; no contract of its own |
| Chip8Spec.StepSpec | smallCHIP-8.h:275-506 | a step records the fetched word in `opcode` and the host's keys in `key`, and reports success exactly when the opcode is known |
| Chip8.Machine.constructor | smallCHIP-8.h:60-122 | a fresh `sc8_state` is all zero |
| Chip8.Machine.Init | smallCHIP-8.h:230-239 | `sc8_init` leaves exactly `Initial()`: zeros, the font at address 0 and `pc` at 512 |
| Chip8.Machine.LoadRomPad | smallCHIP-8.h:258-261 | the ROM is copied to `origin`, and nothing but those memory bytes changes |
| Chip8.Machine.LoadRom | smallCHIP-8.h:241-244 | as `LoadRomPad` at 512 |
| Chip8.Machine.LoadFilePad | smallCHIP-8.h:263-273 | the result is `LoadOutcome`, and memory is `LoadedMemory`; nothing else changes |
| Chip8.Machine.LoadFile | smallCHIP-8.h:246-256 | as `LoadFilePad` at 512 |
| Chip8.Machine.RefreshKeys | smallCHIP-8.h:279 | the key array becomes the matrix the host reports |
| Chip8.Machine.FirstPressed | smallCHIP-8.h:430-436 | the scan returns a pressed key with no pressed key below it |
| Chip8.Machine.DrawSprite | smallCHIP-8.h:388-402 | the display becomes the blit of `memory[0..N)` at (VX, VY), and VF holds the collision bit of the last pixel |
| Chip8.Machine.DrawRows | smallCHIP-8.h:393-401 | the row loop leaves the blit of all N rows on the display and its collision in VF |
| Chip8.Machine.NextRow | smallCHIP-8.h:393-394 | one row pass extends the blit by the row read from `memory[row]` |
| Chip8.Machine.DrawRow | smallCHIP-8.h:395-400 | the pixel loop XORs the eight pixels of a row into the display and leaves the last pixel's collision in VF |
| Chip8.Machine.StoreRegisters | smallCHIP-8.h:466-470 | the FX55 loop leaves `Dump(memory, V, I, X)` |
| Chip8.Machine.StoreDigits | smallCHIP-8.h:459-463 | the FX33 writes leave `WriteBcd(memory, I, VX)` |
| Chip8.Machine.LoadRegisters | smallCHIP-8.h:472-476 | the FX65 loop leaves `Restore(V, memory, I, X)` |
| Chip8.Machine.Arith | smallCHIP-8.h:326-364 | the 8XY_ cases leave `AluResult` in the registers |
| Chip8.Machine.Dispatch | smallCHIP-8.h:282-495 | running the decoded instruction leaves `Execute` of the old state; only CXKK advances the generator |
| Chip8.Machine.ExecScreenStack | smallCHIP-8.h:283-307 | 00E0, 00EE and 2NNN leave `ExecuteControl` of the old state |
| Chip8.Machine.ExecJump | smallCHIP-8.h:282-495 | 1NNN, BNNN, FXFF and the unknown opcodes leave `ExecuteControl` of the old state |
| Chip8.Machine.ExecSkip | smallCHIP-8.h:308-415 | the six skips leave `ExecuteSkip` of the old state |
| Chip8.Machine.ExecMemory | smallCHIP-8.h:388-477 | DXYN, FX33, FX55 and FX65 leave `ExecuteMemory` of the old state |
| Chip8.Machine.ExecIndex | smallCHIP-8.h:377-458 | ANNN, FX1E and FX29 leave `ExecuteMemory` of the old state |
| Chip8.Machine.ExecRandom | smallCHIP-8.h:384-387 | CXKK draws one generator word and stores its low byte masked with KK |
| Chip8.Machine.ExecRegisters | smallCHIP-8.h:317-441 | 6XKK, 7XKK, 8XY_, FX07 and FX0A leave `ExecuteRegister` of the old state |
| Chip8.Machine.ExecTimers | smallCHIP-8.h:442-449 | FX15 and FX18 leave `ExecuteRegister` of the old state |
| Chip8.Machine.TickTimers | smallCHIP-8.h:497-503 | the state becomes `Tick` of the old state; the beep fires exactly when the sound timer was positive |
| Chip8.Machine.Step | smallCHIP-8.h:275-506 | one `sc8_step` leaves `StepSpec`: the new state, the generator word, the return value and one beep exactly when `StepSpec` beeps |
| RegisterLaws.AssignLoadsNibble | smallCHIP-8.h:327-329 | 8XY0 stores the nibble Y and ignores VY; no other register changes |
| RegisterLaws.AddCarryConserves | smallCHIP-8.h:339-344 | VX and 256 * VF together hold the full sum, and VF is 1 exactly when the sum exceeds 255 |
| RegisterLaws.ResultOverwritesFlag | smallCHIP-8.h:339-359 | with X = F, 8FY4, 8FY5 and 8FY7 leave the wrapped result in VF and lose the carry or borrow |
| RegisterLaws.SubBorrow | smallCHIP-8.h:345-349 | VX becomes VX - VY mod 256, and VF is 1 exactly when VX > VY (0 when they are equal) |
| RegisterLaws.SubReverseBorrow | smallCHIP-8.h:355-359 | VX becomes VY - VX mod 256, and VF is 1 exactly when VY > VX |
| RegisterLaws.ShiftRightConserves | smallCHIP-8.h:350-354 | twice the new VX plus VF gives back the old VX |
| RegisterLaws.ShiftLeftConserves | smallCHIP-8.h:360-364 | the new VX plus 256 * VF is twice the old VX |
| RegisterLaws.ShiftsOfFlag | smallCHIP-8.h:350-364 | with X = F the shifts act on the freshly written flag: 8FY6 leaves 0 and 8FYE leaves twice the old top bit, and V0..VE are kept |
| RegisterLaws.AddImmKeepsFlag | smallCHIP-8.h:321-324 | 7XKK adds mod 256, leaves VF and every other register alone, and changes no other field but `pc` |
| RegisterLaws.LoadImmWritesVx | smallCHIP-8.h:317-320 | 6XKK puts KK in VX, moves `pc` by 2 and changes nothing else |
| RegisterLaws.ReadDelayWritesVx | smallCHIP-8.h:425-428 | FX07 copies the delay timer into VX, moves `pc` by 2 and changes nothing else |
| RegisterLaws.WaitKeyStoresLowest | smallCHIP-8.h:429-441 | with a key down, FX0A stores the lowest pressed key in VX, moves `pc` by 2 and changes nothing else |
| RegisterLaws.AndWithNibble | smallCHIP-8.h:333-335 | with the nibble Y as operand, 8XY2 always leaves a value below 16 |
| RegisterLaws.AluStep | smallCHIP-8.h:325-373 | every 8XY_ instruction writes the registers `AluResult` gives, moves `pc` by 2 and changes nothing else |
| RegisterLaws.BitwiseIgnoresVy | smallCHIP-8.h:330-338 | 8XY1, 8XY2 and 8XY3 give the same VX whatever VY holds, and keep every other register |
| RegisterLaws.IndexLoads | smallCHIP-8.h:377-453 | ANNN sets I to NNN; FX1E adds VX to I in 16 bits, wrapping to a smaller value exactly when the sum reaches 65536; nothing else but `pc` changes |
| RegisterLaws.DumpRestore | smallCHIP-8.h:466-477 | FX55 then FX65 with the same X and I brings back V0..V(X-1) and leaves VX..VF as they were |
| RegisterLaws.StoreLoadRoundTrip | smallCHIP-8.h:466-477 | FX55 followed by FX65 leaves the register file unchanged |
| RegisterLaws.MemoryOpsKeepIndex | smallCHIP-8.h:459-477 | FX33, FX55 and FX65 change only memory, the registers and `pc`, which moves by 2: I, the display, the stack, `sp` and the draw flag are kept; FX33 and FX55 keep the registers and FX65 keeps memory |
| RegisterLaws.BcdStoresDigits | smallCHIP-8.h:459-463 | FX33 writes three digits below 10 that spell VX, and no other byte changes |
| ControlLaws.SkipMovesOnlyPc | smallCHIP-8.h:308-415 | a skip changes only `pc`: by 4 exactly when its test holds, by 2 exactly when it fails |
| ControlLaws.CallThenRet | smallCHIP-8.h:290-307 | CALL stores `pc mod 256` at `stack[sp]`; RET right after it restores `sp` but jumps to `stack[sp + 1] + 2`, which is `pc + 2` only if that slot already held `pc` |
| ControlLaws.RetPops | smallCHIP-8.h:290-293 | RET at any `sp` jumps to the byte at `stack[sp]` plus 2 and lowers `sp` by one (0 wraps to 255); nothing else changes |
| ControlLaws.CallPushes | smallCHIP-8.h:304-307 | CALL at any `sp` stores `pc mod 256` at `stack[sp]`, raises `sp` and jumps to NNN; the other slots and fields are kept |
| ControlLaws.JumpsSetPc | smallCHIP-8.h:301-383 | 1NNN jumps to NNN and BNNN to NNN + V0; nothing else changes |
| ControlLaws.RandomStep | smallCHIP-8.h:384-387 | a CXKK step advances the generator once and stores the new word's low byte masked by KK in VX; the other registers, memory, the display, I, the stack, `sp` and the draw flag are kept |
| ControlLaws.RetAtBottomWraps | smallCHIP-8.h:291 | RET at `sp == 0` reads `stack[0]` and leaves `sp` at 255 |
| ControlLaws.GlyphAddress | smallCHIP-8.h:454-458 | FX29 sets I to 5 * VX, moves `pc` by 2 and changes nothing else; the address lies inside the font exactly when VX < 16 |
| ControlLaws.RandomWritesVx | smallCHIP-8.h:384-387 | CXKK with random byte R sets VX to R AND KK, moves `pc` by 2 and changes nothing else |
| ControlLaws.TimerLoads | smallCHIP-8.h:442-449 | FX15 copies VX into the delay timer and FX18 into the sound timer; each moves `pc` by 2 and changes nothing else |
| ControlLaws.InitialLayout | smallCHIP-8.h:230-235 | after init the font is at 0, the rest of memory is zero, `pc` is 512, and every other field (the opcode included) is zero or false |
| ControlLaws.RomKeepsFont | smallCHIP-8.h:230-244 | a ROM loaded after init lands at 512 and leaves the font in place |
| ControlLaws.FileLoadTruncates | smallCHIP-8.h:263-273 | the first `min(size, 4096 - origin)` bytes land at `origin`, other memory is unchanged, and the result is `OK` exactly when something was read |
| ControlLaws.UnknownStep | smallCHIP-8.h:282-505 | a step returns false exactly on an unknown opcode; that step moves `pc` by 4 in the 8 family and by 2 otherwise, and changes no register, memory cell, pixel, stack entry, `sp` or draw flag |
| ControlLaws.UnknownMovesOnlyPc | smallCHIP-8.h:282-495 | an unknown opcode moves `pc` by 4 in the 8 family and by 2 otherwise, and changes nothing else |
| ControlLaws.SpinChangesNothing | smallCHIP-8.h:478-480 | FXFF leaves the whole state as it was |
| ControlLaws.SpinRepeats | smallCHIP-8.h:478-480 | a step on FXFF only records the fetch and ticks the timers; `pc` is unchanged, so the next step fetches FXFF again |
| ControlLaws.SpinOpcodes | smallCHIP-8.h:423-480 | every FXFF word decodes to the spin |
| ControlLaws.TimersTickInSameStep | smallCHIP-8.h:442-503 | in every step both timers tick: each drops by one unless zero from the value FX15 or FX18 just loaded, or else from its old value, and the step beeps exactly when that sound value is positive |
| ControlLaws.ExecuteKeepsTimers | smallCHIP-8.h:282-495 | only FX15 writes the delay timer and only FX18 writes the sound timer |
| ControlLaws.GeneratorAdvance | smallCHIP-8.h:384-386 | only CXKK advances the generator, and from a non-zero word it stays non-zero |
| DisplayLaws.BlitRowParity | smallCHIP-8.h:395-400 | within one row, a cell ends up toggled exactly when an odd number of set pixels hit it |
| DisplayLaws.BlitParityStep | smallCHIP-8.h:393-401 | drawing one more row keeps the parity law |
| DisplayLaws.BlitParity | smallCHIP-8.h:393-401 | after the first r rows, a cell is toggled exactly when an odd number of set sprite pixels landed on it |
| DisplayLaws.DrawTwiceRestores | smallCHIP-8.h:388-401 | blitting the same sprite twice at the same place gives back the display |
| DisplayLaws.CollisionFromLastPixel | smallCHIP-8.h:392-398 | VF after DXYN is 0 for a zero-row sprite; otherwise it is 1 exactly when the last pixel of the last row is set and turned its cell off |
| DisplayLaws.DrawTwiceExecute | smallCHIP-8.h:388-405 | running the same DXYN twice (X and Y not F) restores the display and raises the draw flag |
| DisplayLaws.ClearBlanks | smallCHIP-8.h:285-289 | 00E0 turns every pixel off, raises the draw flag, moves `pc` by 2 and changes nothing else |
| DisplayLaws.DrawIgnoresIndex | smallCHIP-8.h:393-394 | DXYN reads its sprite from address 0 whatever I holds: two states that differ only in I draw the same pixels and set the same flag |
| DisplayLaws.DrawWritesScreenAndFlag | smallCHIP-8.h:388-405 | DXYN leaves the blit on the display and its collision as 0 or 1 in VF, keeps V0..VE, raises the draw flag, moves `pc` by 2 and changes nothing else |

## Left out

- The stdio wrappers `sc8_fopen`, `sc8_fread`, `sc8_fclose`, `sc8_fnil` and `sc8_errprintf` (smallCHIP-8.h:197-216) are foreign I/O. A file is its open/not-open outcome and its bytes. Error messages have no effect on the state.
- `sc8_updateKeyArray` and `sc8_beep` are host code. The first is the `keys` argument of `Step`; the second is the ghost counter `beeps`.
- The busy-poll of FX0A when no key is down (smallCHIP-8.h:430-438) loops on host input. FX0A is modelled only when a key is already down, as a precondition of the step.
- The C undefined behaviour cases are preconditions, not modelled behaviour:
  - a DXYN cell index of 2048 or more;
  - `key[VX]` with VX >= 16;
  - CALL or RET with `sp` >= 16;
  - FX33, FX55 or FX65 past the end of memory;
  - a fetch at `pc` >= 4095;
  - a negative padding.
- test/sc8_renderer.c is not part of this model: it is SDL windowing, key mapping and floating-point sound synthesis.
- XorRand.XorShift, XorRand.Mix13, XorRand.Mix17 and XorRand.Mix5: only non-zero preservation is proved, by XorRand.XorShiftNonZero. Invertibility and the period of the xorshift step are not.
- Bytes.SpriteBit: the C mask test `(row & (0x80 >> col)) != 0` is stated as bit `7 - col` of the row. The equivalence of the mask and the bit is not proved against a bit-vector AND.
- Bytes.Or8, Bytes.And8 and Bytes.Xor8 carry no contracts. They are the byte operators computed through `bv8`.
- Chip8Spec.Execute, Chip8Spec.ExecuteControl, Chip8Spec.ExecuteSkip, Chip8Spec.ExecuteMemory and Chip8Spec.ExecuteRegister: their own contracts state only that array sizes are kept. The effect of each instruction is stated by a lemma:
  - 00E0: DisplayLaws.ClearBlanks;
  - 00EE: ControlLaws.RetPops, ControlLaws.RetAtBottomWraps;
  - 2NNN: ControlLaws.CallPushes, ControlLaws.CallThenRet;
  - 1NNN, BNNN: ControlLaws.JumpsSetPc;
  - the skips: ControlLaws.SkipMovesOnlyPc;
  - 6XKK, FX07, FX0A: RegisterLaws.LoadImmWritesVx, RegisterLaws.ReadDelayWritesVx, RegisterLaws.WaitKeyStoresLowest;
  - 7XKK: RegisterLaws.AddImmKeepsFlag;
  - 8XY_: RegisterLaws.AluStep (only the registers and `pc` change), RegisterLaws.AssignLoadsNibble, RegisterLaws.BitwiseIgnoresVy, RegisterLaws.AndWithNibble and the carry, borrow and shift laws;
  - ANNN, FX1E: RegisterLaws.IndexLoads; FX29: ControlLaws.GlyphAddress;
  - CXKK: ControlLaws.RandomWritesVx, ControlLaws.RandomStep;
  - DXYN: DisplayLaws.DrawWritesScreenAndFlag, DisplayLaws.BlitParity, DisplayLaws.CollisionFromLastPixel, DisplayLaws.DrawTwiceExecute, DisplayLaws.DrawIgnoresIndex;
  - FX15, FX18: ControlLaws.TimerLoads, ControlLaws.TimersTickInSameStep and ControlLaws.ExecuteKeepsTimers;
  - FX33, FX55, FX65: RegisterLaws.MemoryOpsKeepIndex, RegisterLaws.BcdStoresDigits, RegisterLaws.StoreLoadRoundTrip;
  - FXFF and the unknown opcodes: ControlLaws.SpinChangesNothing, ControlLaws.SpinRepeats, ControlLaws.UnknownMovesOnlyPc, ControlLaws.UnknownStep.
- RegisterLaws.BitwiseIgnoresVy: the bits that 8XY1, 8XY2 and 8XY3 leave in VX are not stated bit by bit. The lemma states only that VY plays no part; RegisterLaws.AndWithNibble adds that 8XY2 leaves a value below 16. The matching laws for 8XY1 (the high nibble is kept) and 8XY3 (applying it twice undoes it) are not proved.
- Chip8Spec.Blit, Chip8Spec.BlitRow, Chip8Spec.WriteBcd, Chip8Spec.LoadedMemory and Chip8Spec.AluResult: their own contracts state only the length of the result. Their contents are stated by DisplayLaws.BlitParity, DisplayLaws.BlitRowParity, RegisterLaws.BcdStoresDigits, ControlLaws.FileLoadTruncates and the RegisterLaws lemmas.
- Chip8Spec.Initial: its own contract states only that the state is well formed. Its contents are stated by ControlLaws.InitialLayout.
- Opcode.Decode, Opcode.Family, Opcode.X, Opcode.Y, Opcode.N, Opcode.KK and Opcode.NNN carry no contracts of their own. They are stated by Opcode.FieldsRecompose, Opcode.FieldsOf, Opcode.DecodeEncode, Opcode.LooseDecoding and Opcode.UnknownFamilies.
- Chip8Spec.Defined, Chip8Spec.Next, Chip8Spec.Fetched and Chip8Spec.Ready carry no contracts of their own. They are the preconditions and the fetch that Chip8Spec.StepSpec and the laws are stated under.
- Chip8Spec.CellIndex and Chip8Spec.SpriteRows carry no contracts of their own. They are the addresses as written, used by DisplayLaws.
- The build-time customisation points are fixed to their defaults. The model uses the built-in `sc8_fontset` and never a user font supplied under `SC8_NO_DEFAULT_FONTSET` (smallCHIP-8.h:169-172). It uses the xorshift generator and never a replacement for `sc8_defRand` (smallCHIP-8.h:150).
- Opcode.DecodeEncode covers the canonical word of each instruction only: 00E0 and 00EE are encoded with Y = E, and the ignored low nibble of 5XY0 and 9XY0 and the ignored X of FXFF are zero. The other words are covered by Opcode.LooseDecoding and ControlLaws.SpinOpcodes.
- Chip8.Machine.Step: the generator word is passed as an object, not kept in a process-wide global.

=== FILE: bytes.dfy ===
/** Fixed-width machine integers of the interpreter and the bit macros it uses. */
module Bytes {

  /** `uint8_t`: registers, memory cells, timers, stack slots and the stack pointer. */
  type u8 = x: int | 0 <= x < 0x100

  /** `uint16_t`: the fetched opcode, the index register and the program counter. */
  type u16 = x: int | 0 <= x < 0x1_0000

  /** Bitwise OR of two bytes (`|=` in 8XY1). */
  function Or8(a: u8, b: u8): u8
  {
    ((a as bv8) | (b as bv8)) as int
  }

  /** Bitwise AND of two bytes (`&=` in 8XY2, the mask of CXKK). */
  function And8(a: u8, b: u8): u8
  {
    ((a as bv8) & (b as bv8)) as int
  }

  /** Bitwise XOR of two bytes (`^=` in 8XY3). */
  function Xor8(a: u8, b: u8): u8
  {
    ((a as bv8) ^ (b as bv8)) as int
  }

  /** A C `bool` stored in a byte: 1 for true, 0 for false. */
  function Bool8(b: bool): (r: u8)
    ensures r < 2 && (r == 1 <==> b)
  {
    if b then 1 else 0
  }

  /** `SC8_LSB`: the bit a right shift by one drops. */
  function Lsb(b: u8): (r: u8)
    ensures r < 2 && b == 2 * (b / 2) + r
  {
    b % 2
  }

  /** `SC8_MSB` on a byte (`b >> 7 & 1`): the bit a left shift by one drops. */
  function Msb(b: u8): (r: u8)
    ensures r < 2 && b == 128 * r + b % 128
  {
    b / 128
  }

  /** Bit `k` of `b`, counting from the least significant bit. */
  function BitAt(b: nat, k: nat): bool
  {
    if k == 0 then b % 2 == 1 else BitAt(b / 2, k - 1)
  }

  /**
   * The sprite test `(row & (0x80 >> col)) != 0`: the mask selects bit
   * `7 - col`, so pixel 0 of a sprite row is its most significant bit.
   */
  function SpriteBit(row: u8, col: nat): bool
    requires col < 8
  {
    BitAt(row, 7 - col)
  }
}

=== FILE: control.dfy ===
/**
 * Laws of the control-flow instructions and of whole steps of `sc8_step`:
 * the skips, CALL and RET on a byte-wide stack, FXFF, unknown opcodes, the
 * timers and the generator.
 */
module ControlLaws {
  import opened Bytes
  import opened Opcode
  import opened XorRand
  import opened Chip8Spec

  /**
   * The condition under which each skip passes over the next opcode, as the
   * CHIP-8 instruction set describes it (with 5XY_ and 9XY_ comparing VX and VY).
   */
  predicate SkipTaken(s: State, ins: Instr)
    requires s.WellFormed() && IsSkip(ins)
  {
    match ins
    case SkipEqImm(x, kk) => s.v[x] == kk
    case SkipNeImm(x, kk) => !(s.v[x] == kk)
    case SkipEqReg(x, y) => s.v[x] == s.v[y]
    case SkipNeReg(x, y) => !(s.v[x] == s.v[y])
    case SkipKeyDown(x) => s.v[x] < 16 && s.key[s.v[x]]
    case SkipKeyUp(x) => s.v[x] < 16 && !s.key[s.v[x]]
  }

  /** A skip changes nothing but `pc`, which moves by 4 when the test holds and by 2 otherwise. */
  lemma SkipMovesOnlyPc(s: State, ins: Instr, rnd: u8)
    requires s.WellFormed() && s.pc <= MaxFetch && IsSkip(ins) && Defined(s, ins)
    ensures var r := Execute(s, ins, rnd);
      r == s.(pc := r.pc) &&
      (r.pc == s.pc + 4 <==> SkipTaken(s, ins)) && (r.pc == s.pc + 2 <==> !SkipTaken(s, ins))
  {
  }

  /**
   * 2NNN then 00EE. CALL stores the low byte of `pc` at `stack[sp]` and
   * increments `sp`; RET reads `stack[sp]` before decrementing, so it reads the
   * slot above the one CALL wrote. The pair restores `sp` but returns to the
   * opcode after the one CALL stored only when that slot already held `pc`.
   */
  lemma CallThenRet(s: State, nnn: Addr, rnd: u8)
    requires s.WellFormed() && s.pc <= MaxFetch && s.sp < 15 && nnn <= MaxFetch
    ensures var c := Execute(s, Call(nnn), rnd);
      c.pc == nnn && c.sp == s.sp + 1 && c.stack[s.sp] == s.pc % 256 &&
      forall k :: 0 <= k < 16 && k != s.sp ==> c.stack[k] == s.stack[k]
    ensures var r := Execute(Execute(s, Call(nnn), rnd), Ret, rnd);
      r.sp == s.sp && r.pc == s.stack[s.sp + 1] as int + 2 &&
      (r.pc == s.pc + 2 <==> s.stack[s.sp + 1] == s.pc)
  {
  }

  /**
   * 00EE at any `sp`: `pc` becomes the byte in the slot at the current `sp`
   * plus 2, then `sp` drops by one (from 0 to 255); nothing else changes.
   */
  lemma RetPops(s: State, rnd: u8)
    requires s.WellFormed() && s.pc <= MaxFetch && s.sp < 16
    ensures var r := Execute(s, Ret, rnd);
      r == s.(pc := r.pc, sp := r.sp) && r.pc == s.stack[s.sp] as int + 2 &&
      (s.sp > 0 ==> r.sp == s.sp - 1) && (s.sp == 0 ==> r.sp == 255)
  {
  }

  /**
   * 2NNN at any `sp` and any NNN: the low byte of `pc` goes into the slot at
   * `sp`, `sp` rises by one and `pc` becomes NNN; the other slots and every
   * other field are unchanged. `pc` is not moved past the call first.
   */
  lemma CallPushes(s: State, nnn: Addr, rnd: u8)
    requires s.WellFormed() && s.pc <= MaxFetch && s.sp < 16
    ensures var r := Execute(s, Call(nnn), rnd);
      r == s.(stack := r.stack, sp := r.sp, pc := r.pc) &&
      r.pc == nnn && r.sp == s.sp + 1 && |r.stack| == 16 && r.stack[s.sp] == s.pc % 256 &&
      forall k :: 0 <= k < 16 && k != s.sp ==> r.stack[k] == s.stack[k]
  {
  }

  /**
   * 1NNN jumps to NNN and BNNN to NNN + V0 (which can pass the end of memory);
   * neither changes anything but `pc`.
   */
  lemma JumpsSetPc(s: State, nnn: Addr, rnd: u8)
    requires s.WellFormed() && s.pc <= MaxFetch
    ensures var r := Execute(s, Jump(nnn), rnd); r == s.(pc := r.pc) && r.pc == nnn
    ensures var r := Execute(s, JumpOffset(nnn), rnd);
      r == s.(pc := r.pc) && r.pc == nnn + s.v[0]
  {
  }

  /**
   * CXKK as one step: the generator advances once and VX receives the low
   * byte of the new word masked by KK; the other registers are kept.
   */
  lemma RandomStep(s: State, keys: seq<bool>, seed: bv32)
    requires Ready(s, keys) && Next(s).Random?
    ensures var o := StepSpec(s, keys, seed); var ins := Next(s);
      o.seed == XorShift(seed) && o.next.v[ins.x] == And8(LowByte(o.seed), ins.kk) &&
      o.next.pc == s.pc + 2 &&
      (forall j :: 0 <= j < 16 && j != ins.x ==> o.next.v[j] == s.v[j]) &&
      o.next.memory == s.memory && o.next.gfx == s.gfx && o.next.i == s.i &&
      o.next.sp == s.sp && o.next.stack == s.stack && o.next.drawFlag == s.drawFlag
  {
    var ins := Next(s);
    var seed' := XorShift(seed);
    var done := Execute(Fetched(s, keys), ins, LowByte(seed'));
    assert StepSpec(s, keys, seed) == Outcome(Tick(done), seed', true, done.st > 0);
    assert done.v == s.v[ins.x := And8(LowByte(seed'), ins.kk)];
  }

  /** CXKK writes the masked random byte to VX and changes nothing else but `pc`. */
  lemma RandomWritesVx(s: State, x: Nibble, kk: u8, rnd: u8)
    requires s.WellFormed() && s.pc <= MaxFetch
    ensures Execute(s, Random(x, kk), rnd) == s.(v := s.v[x := And8(rnd, kk)], pc := s.pc + 2)
  {
  }

  /** FX15 and FX18 copy VX into one timer and change nothing else but `pc`. */
  lemma TimerLoads(s: State, x: Nibble, rnd: u8)
    requires s.WellFormed() && s.pc <= MaxFetch
    ensures Execute(s, SetDelay(x), rnd) == s.(dt := s.v[x], pc := s.pc + 2)
    ensures Execute(s, SetSound(x), rnd) == s.(st := s.v[x], pc := s.pc + 2)
  {
  }

  /** 00EE with `sp` at 0 leaves `sp` at 255: the byte-wide stack pointer wraps. */
  lemma RetAtBottomWraps(s: State, rnd: u8)
    requires s.WellFormed() && s.pc <= MaxFetch && s.sp == 0
    ensures Execute(s, Ret, rnd).sp == 255 && Execute(s, Ret, rnd).pc == s.stack[0] as int + 2
  {
  }

  /** FX29 points I at five times VX: inside the font for VX < 16, past it otherwise. */
  lemma GlyphAddress(s: State, x: Nibble, rnd: u8)
    requires s.WellFormed() && s.pc <= MaxFetch
    ensures var r := Execute(s, FontGlyph(x), rnd);
      r == s.(i := 5 * s.v[x] as int, pc := s.pc + 2) &&
      (s.v[x] < 16 <==> r.i + 5 <= |Font|)
  {
  }

  /** The state `sc8_init` leaves: the font at address 0, zeros above it, `pc` at 512, all else zero. */
  lemma InitialLayout()
    ensures var s := Initial();
      s.WellFormed() && s.pc == ProgramStart && s.memory[..|Font|] == Font &&
      (forall a :: |Font| <= a < MemorySize ==> s.memory[a] == 0) &&
      (forall k :: 0 <= k < 16 ==> s.v[k] == 0 && s.stack[k] == 0 && !s.key[k]) &&
      (forall c :: 0 <= c < ScreenSize ==> !s.gfx[c]) &&
      s.opcode == 0 && s.i == 0 && s.sp == 0 && s.dt == 0 && s.st == 0 && !s.drawFlag
  {
  }

  /**
   * `sc8_loadRom` after `sc8_init`: a ROM that fits above 512 lands at 512
   * and leaves the font where FX29 expects it.
   */
  lemma RomKeepsFont(rom: seq<u8>)
    requires |rom| <= MemorySize - ProgramStart
    ensures var m := Place(Initial().memory, rom, ProgramStart);
      m[..|Font|] == Font && m[ProgramStart..ProgramStart + |rom|] == rom
  {
    var m := Place(Initial().memory, rom, ProgramStart);
    assert forall k :: 0 <= k < |Font| ==> m[k] == Font[k];
  }

  /**
   * `sc8_loadFilePad`: the first `min(|file|, 4096 - origin)` bytes land at
   * `origin`, the rest of memory keeps its contents, and the result is `OK`
   * exactly when at least one byte was read.
   */
  lemma FileLoadTruncates(mem: seq<u8>, bytes: seq<u8>, origin: nat)
    requires |mem| == MemorySize && origin <= MemorySize
    ensures var n := ReadCount(bytes, origin); var m := LoadedMemory(mem, Some(bytes), origin);
      (n == |bytes| <==> |bytes| <= MemorySize - origin) &&
      (forall k :: 0 <= k < n ==> m[origin + k] == bytes[k]) &&
      (forall a :: 0 <= a < MemorySize && !(origin <= a < origin + n) ==> m[a] == mem[a]) &&
      (LoadOutcome(Some(bytes), origin) == OK <==> n > 0)
  {
  }

  /**
   * `sc8_step` returns false exactly for an opcode no case handles; such a step
   * moves `pc` past it (by 4 in the 8 family, whose `default` and outer case
   * both add 2) and changes no register, memory cell or pixel.
   */
  lemma UnknownStep(s: State, keys: seq<bool>, seed: bv32)
    requires Ready(s, keys)
    ensures var o := StepSpec(s, keys, seed);
      (!o.known <==> Next(s).Unknown?) &&
      (!o.known ==> o.next.pc == s.pc + (if Family(FetchedWord(s)) == 8 then 4 else 2) &&
                    o.next.v == s.v && o.next.memory == s.memory && o.next.gfx == s.gfx &&
                    o.next.i == s.i && o.next.sp == s.sp && o.next.stack == s.stack &&
                    o.next.drawFlag == s.drawFlag && o.seed == seed)
  {
    UnknownFamilies(FetchedWord(s));
  }

  /** An unknown opcode only moves `pc`: by 4 in the 8XY_ family, by 2 otherwise. */
  lemma UnknownMovesOnlyPc(s: State, op: u16, rnd: u8)
    requires s.WellFormed() && s.pc <= MaxFetch
    ensures Execute(s, Unknown(op), rnd) == s.(pc := s.pc + if Family(op) == 8 then 4 else 2)
  {
  }

  /** FXFF executes as the identity on the whole state. */
  lemma SpinChangesNothing(s: State, rnd: u8)
    requires s.WellFormed() && s.pc <= MaxFetch
    ensures Execute(s, Spin, rnd) == s
  {
  }

  /** FXFF leaves `pc` on itself, so every later step fetches and runs it again. */
  lemma SpinRepeats(s: State, keys: seq<bool>, seed: bv32)
    requires Ready(s, keys) && Next(s).Spin?
    ensures var o := StepSpec(s, keys, seed);
      o.known && o.next.pc == s.pc && o.next.memory == s.memory && o.next.v == s.v &&
      FetchedWord(o.next) == FetchedWord(s) && Next(o.next).Spin? &&
      o.next == Tick(Fetched(s, keys))
  {
  }

  /** Every FX opcode with low byte FF decodes to the spin. */
  lemma SpinOpcodes(op: u16)
    requires Family(op) == 0xF && KK(op) == 0xFF
    ensures Decode(op) == Spin
  {
  }

  /**
   * The timers count down at the end of every step, including the step that
   * set them. The value ticked is the one FX15 (delay) or FX18 (sound) just
   * loaded from VX, or the timer as it was; each drops by one unless it is
   * zero, and the step beeps exactly when the sound value ticked is positive.
   */
  lemma TimersTickInSameStep(s: State, keys: seq<bool>, seed: bv32)
    requires Ready(s, keys)
    ensures var o := StepSpec(s, keys, seed);
      var ins := Next(s);
      var d0 := if ins.SetDelay? then s.v[ins.x] else s.dt;
      var s0 := if ins.SetSound? then s.v[ins.x] else s.st;
      o.next.dt == (if d0 > 0 then d0 - 1 else 0) &&
      o.next.st == (if s0 > 0 then s0 - 1 else 0) && (o.beep <==> s0 > 0)
  {
    var ins := Next(s);
    var seed' := if ins.Random? then XorShift(seed) else seed;
    var done := Execute(Fetched(s, keys), ins, LowByte(seed'));
    assert StepSpec(s, keys, seed) == Outcome(Tick(done), seed', !ins.Unknown?, done.st > 0);
    ExecuteKeepsTimers(Fetched(s, keys), ins, LowByte(seed'));
    if ins.SetDelay? {
      assert done.dt == s.v[ins.x];
    } else if ins.SetSound? {
      assert done.st == s.v[ins.x];
    }
  }

  /** Only FX15 writes the delay timer and only FX18 the sound timer. */
  lemma ExecuteKeepsTimers(s: State, ins: Instr, rnd: u8)
    requires s.WellFormed() && s.pc <= MaxFetch && Defined(s, ins)
    ensures !ins.SetDelay? ==> Execute(s, ins, rnd).dt == s.dt
    ensures !ins.SetSound? ==> Execute(s, ins, rnd).st == s.st
  {
  }

  /**
   * Only CXKK draws from the generator, and from a non-zero word (such as the
   * initial one) the generator never reaches zero.
   */
  lemma GeneratorAdvance(s: State, keys: seq<bool>, seed: bv32)
    requires Ready(s, keys)
    ensures var o := StepSpec(s, keys, seed);
      (o.seed != seed ==> Next(s).Random?) && (seed != 0 ==> o.seed != 0)
  {
    if Next(s).Random? && seed != 0 {
      XorShiftNonZero(seed);
    }
  }
}

=== FILE: display.dfy ===
/**
 * Laws of DXYN over the pure model. Each set sprite pixel XORs one display
 * cell, so a cell ends up flipped exactly when an odd number of set pixels
 * land on it; drawing the same sprite twice therefore restores the display.
 * VF, as written, only reports the last pixel of the sprite.
 */
module DisplayLaws {
  import opened Bytes
  import opened Opcode
  import opened Chip8Spec

  /**
   * Whether the first `c` pixels of sprite row `row` flip `cell` an odd number
   * of times: each set pixel that lands on the cell toggles the answer.
   */
  function RowFlips(bits: u8, x0: u8, y0: u8, row: nat, c: nat, cell: nat): bool
    requires c <= 8
  {
    c > 0 && (RowFlips(bits, x0, y0, row, c - 1, cell) != (SpriteBit(bits, c - 1) && CellIndex(x0, y0, row, c - 1) == cell))
  }

  /** Whether the set pixels of the first `r` sprite rows flip `cell` an odd number of times. */
  function Flips(rows: seq<u8>, x0: u8, y0: u8, r: nat, cell: nat): bool
    requires r <= |rows|
  {
    r > 0 && (Flips(rows, x0, y0, r - 1, cell) != RowFlips(rows[r - 1], x0, y0, r - 1, 8, cell))
  }

  /** Within one sprite row, a cell ends up toggled exactly when its set pixels flip it an odd number of times. */
  lemma {:induction false} BlitRowParity(d: Drawn, bits: u8, x0: u8, y0: u8, row: nat, c: nat, cell: nat)
    requires |d.screen| == ScreenSize && c <= 8 && RowFits(x0, y0, row) && cell < ScreenSize
    ensures BlitRow(d, bits, x0, y0, row, c).screen[cell] ==
            (d.screen[cell] != RowFlips(bits, x0, y0, row, c, cell))
  {
    if c > 0 {
      var k := c - 1;
      BlitRowParity(d, bits, x0, y0, row, k, cell);
    }
  }

  /** Drawing row `k` on top of the first `k` rows keeps the parity law. */
  lemma {:induction false} BlitParityStep(gfx: seq<bool>, rows: seq<u8>, x0: u8, y0: u8, k: nat, cell: nat)
    requires |gfx| == ScreenSize && k < |rows| && SpriteFits(x0, y0, |rows|) && cell < ScreenSize
    requires Blit(gfx, rows, x0, y0, k).screen[cell] == (gfx[cell] != Flips(rows, x0, y0, k, cell))
    ensures Blit(gfx, rows, x0, y0, k + 1).screen[cell] == (gfx[cell] != Flips(rows, x0, y0, k + 1, cell))
  {
    assert RowFits(x0, y0, k);
    BlitRowParity(Blit(gfx, rows, x0, y0, k), rows[k], x0, y0, k, 8, cell);
  }

  /** After the first `r` rows, a cell is toggled exactly when the set pixels flip it an odd number of times. */
  lemma {:induction false} BlitParity(gfx: seq<bool>, rows: seq<u8>, x0: u8, y0: u8, r: nat, cell: nat)
    requires |gfx| == ScreenSize && r <= |rows| && SpriteFits(x0, y0, |rows|) && cell < ScreenSize
    ensures Blit(gfx, rows, x0, y0, r).screen[cell] == (gfx[cell] != Flips(rows, x0, y0, r, cell))
  {
    if r > 0 {
      var k := r - 1;
      BlitParity(gfx, rows, x0, y0, k, cell);
      BlitParityStep(gfx, rows, x0, y0, k, cell);
    }
  }

  /** Drawing a sprite and then the same sprite at the same place gives back the display. */
  lemma {:induction false} DrawTwiceRestores(gfx: seq<bool>, rows: seq<u8>, x0: u8, y0: u8)
    requires |gfx| == ScreenSize && SpriteFits(x0, y0, |rows|)
    ensures Blit(Blit(gfx, rows, x0, y0, |rows|).screen, rows, x0, y0, |rows|).screen == gfx
  {
    var once := Blit(gfx, rows, x0, y0, |rows|).screen;
    var twice := Blit(once, rows, x0, y0, |rows|).screen;
    forall cell | 0 <= cell < ScreenSize
      ensures twice[cell] == gfx[cell]
    {
      BlitParity(gfx, rows, x0, y0, |rows|, cell);
      BlitParity(once, rows, x0, y0, |rows|, cell);
    }
  }

  /**
   * VF after DXYN comes from the last pixel alone: it is 0 for a sprite of no
   * rows, and otherwise it is 1 exactly when bit 0 of the last sprite row is
   * set and that pixel turned its cell off.
   */
  lemma CollisionFromLastPixel(gfx: seq<bool>, rows: seq<u8>, x0: u8, y0: u8)
    requires |gfx| == ScreenSize && SpriteFits(x0, y0, |rows|)
    ensures var d := Blit(gfx, rows, x0, y0, |rows|);
      (|rows| == 0 ==> !d.collision) &&
      (|rows| > 0 ==> (d.collision <==>
        SpriteBit(rows[|rows| - 1], 7) && !d.screen[CellIndex(x0, y0, |rows| - 1, 7)]))
  {
    if |rows| > 0 {
      assert RowFits(x0, y0, |rows| - 1);
    }
  }

  /**
   * At the level of `sc8_step`'s DXYN case: with X and Y not F (so VF does
   * not move the sprite), running the same DXYN twice restores the display.
   */
  lemma {:induction false} DrawTwiceExecute(s: State, x: Nibble, y: Nibble, n: Nibble, rnd: u8)
    requires s.WellFormed() && s.pc + 2 <= MaxFetch && x != Flag && y != Flag
    requires SpriteFits(s.v[x], s.v[y], n)
    ensures var once := Execute(s, Draw(x, y, n), rnd);
      Execute(once, Draw(x, y, n), rnd).gfx == s.gfx && once.drawFlag
  {
    var once := Execute(s, Draw(x, y, n), rnd);
    assert once.v[x] == s.v[x] && once.v[y] == s.v[y] && once.memory == s.memory;
    DrawTwiceRestores(s.gfx, SpriteRows(s, n), s.v[x], s.v[y]);
  }

  /**
   * DXYN writes only the display, VF, the draw flag and `pc`: the display
   * becomes the blit of the sprite at (VX, VY), VF its collision flag, and
   * every other register is kept.
   */
  lemma DrawWritesScreenAndFlag(s: State, x: Nibble, y: Nibble, n: Nibble, rnd: u8)
    requires s.WellFormed() && s.pc <= MaxFetch && SpriteFits(s.v[x], s.v[y], n)
    ensures var r := Execute(s, Draw(x, y, n), rnd);
      var d := Blit(s.gfx, SpriteRows(s, n), s.v[x], s.v[y], n);
      r == s.(gfx := r.gfx, v := r.v, drawFlag := true, pc := s.pc + 2) &&
      r.gfx == d.screen && |r.v| == 16 && (r.v[Flag] == 1 <==> d.collision) && r.v[Flag] < 2 &&
      forall j :: 0 <= j < Flag ==> r.v[j] == s.v[j]
  {
    var d := Blit(s.gfx, SpriteRows(s, n), s.v[x], s.v[y], n);
    assert Execute(s, Draw(x, y, n), rnd) ==
      s.(gfx := d.screen, v := s.v[Flag := Bool8(d.collision)], drawFlag := true, pc := s.pc + 2);
  }

  /**
   * DXYN reads its sprite from address 0, never from I: two states that differ
   * only in I draw the same pixels and set the same flag.
   */
  lemma DrawIgnoresIndex(s: State, j: u16, x: Nibble, y: Nibble, n: Nibble, rnd: u8)
    requires s.WellFormed() && s.pc <= MaxFetch && SpriteFits(s.v[x], s.v[y], n)
    ensures Execute(s.(i := j), Draw(x, y, n), rnd) == Execute(s, Draw(x, y, n), rnd).(i := j)
  {
  }

  /** 00E0 turns every pixel off, raises the draw flag and changes nothing else but `pc`. */
  lemma ClearBlanks(s: State, rnd: u8)
    requires s.WellFormed() && s.pc <= MaxFetch
    ensures var r := Execute(s, Cls, rnd);
      r == s.(gfx := r.gfx, drawFlag := true, pc := s.pc + 2) &&
      (forall c :: 0 <= c < ScreenSize ==> !r.gfx[c])
  {
  }
}

=== FILE: machine.dfy ===
/**
 * `sc8_state` as an object updated in place by `sc8_init`, `sc8_loadRom(Pad)`,
 * `sc8_loadFile(Pad)` and `sc8_step`. Each instruction and step method is proved
 * to leave the state that the matching function of Chip8Spec computes from the
 * old state; the key refresh and the FX0A scan are proved against their own
 * contracts.
 *
 * Host collaborators: the key refresh `sc8_updateKeyArray` is the `keys`
 * argument of `Step` (the key matrix the host reports), `sc8_beep` increments
 * the ghost counter `beeps`, `sc8_errprintf` has no effect on the state and is
 * left out, and an opened file is the byte sequence `sc8_fread` would deliver.
 */
module Chip8 {
  import opened Bytes
  import opened Opcode
  import opened XorRand
  import opened Chip8Spec

  /** Writing a slot twice leaves only the second value. */
  lemma OverwriteTwice<T>(s: seq<T>, k: nat, a: T, b: T)
    requires k < |s|
    ensures s[k := a][k := b] == s[k := b]
  {
  }

  class Machine {
    const memory: array<u8>
    const gfx: array<bool>
    const key: array<bool>
    const v: array<u8>
    const stack: array<u8>
    var drawFlag: bool
    var opcode: u16
    var i: u16
    var pc: u16
    var dt: u8
    var st: u8
    var sp: u8
    /** How many times `sc8_beep` has been called. */
    ghost var beeps: nat

    /** The arrays have the sizes `sc8_state` gives them and do not overlap. */
    ghost predicate Valid()
    {
      memory.Length == MemorySize && gfx.Length == ScreenSize && key.Length == 16 &&
      v.Length == 16 && stack.Length == 16 &&
      memory != v && memory != stack && v != stack && gfx != key
    }

    /** The state as a value. */
    ghost function Model(): (s: State)
      reads this, memory, gfx, key, v, stack
      requires Valid()
      ensures s.WellFormed()
    {
      State(memory[..], gfx[..], drawFlag, key[..], opcode, v[..], i, pc, dt, st, stack[..], sp)
    }

    /** A zero-filled `sc8_state`, as a C object of static storage starts. */
    constructor ()
      ensures Valid() && beeps == 0
      ensures Model() == State(seq(MemorySize, _ => 0), seq(ScreenSize, _ => false), false,
                               seq(16, _ => false), 0, seq(16, _ => 0), 0, 0, 0, 0,
                               seq(16, _ => 0), 0)
    {
      memory := new u8[MemorySize](_ => 0);
      gfx := new bool[ScreenSize](_ => false);
      key := new bool[16](_ => false);
      v := new u8[16](_ => 0);
      stack := new u8[16](_ => 0);
      drawFlag, opcode, i, pc, dt, st, sp := false, 0, 0, 0, 0, 0, 0;
      beeps := 0;
    }

    /** `sc8_init`: zero the whole state, set `pc` to 512, copy the font to address 0. */
    method Init()
      requires Valid()
      modifies this, memory, gfx, key, v, stack
      ensures Model() == Initial() && beeps == old(beeps)
    {
      forall a | 0 <= a < memory.Length {
        memory[a] := 0;
      }
      forall c | 0 <= c < gfx.Length {
        gfx[c] := false;
      }
      forall k | 0 <= k < 16 {
        key[k] := false;
      }
      forall k | 0 <= k < 16 {
        v[k] := 0;
      }
      forall k | 0 <= k < 16 {
        stack[k] := 0;
      }
      drawFlag, opcode, i, pc, dt, st, sp := false, 0, 0, 0, 0, 0, 0;
      pc := ProgramStart;
      forall a | 0 <= a < |Font| {
        memory[a] := Font[a];
      }
      assert memory[..] == Font + seq(MemorySize - |Font|, _ => 0);
    }

    /** `sc8_loadRomPad`: copy `rom` to `memory[origin..]`; the C asserts the size bound. */
    method LoadRomPad(rom: seq<u8>, origin: int)
      requires Valid() && 0 <= origin && |rom| < MemorySize - origin
      modifies memory
      ensures Model() == old(Model()).(memory := Place(old(memory[..]), rom, origin))
    {
      forall k | 0 <= k < |rom| {
        memory[origin + k] := rom[k];
      }
      assert memory[..] == Place(old(memory[..]), rom, origin);
    }

    /** `sc8_loadRom`: `sc8_loadRomPad` at the program start, 512. */
    method LoadRom(rom: seq<u8>)
      requires Valid() && |rom| < MemorySize - ProgramStart
      modifies memory
      ensures Model() == old(Model()).(memory := Place(old(memory[..]), rom, ProgramStart))
    {
      LoadRomPad(rom, ProgramStart);
    }

    /**
     * `sc8_loadFilePad`: `None` is a file that did not open; otherwise read at
     * most `MemorySize - origin` bytes of it to `memory[origin..]`.
     */
    method LoadFilePad(file: Option<seq<u8>>, origin: int) returns (r: LoadFileResult)
      requires Valid() && 0 <= origin <= MemorySize
      modifies memory
      ensures r == LoadOutcome(file, origin)
      ensures Model() == old(Model()).(memory := LoadedMemory(old(memory[..]), file, origin))
    {
      if file.None? {
        return FopenError;
      }
      var n := ReadCount(file.value, origin);
      var bytes := file.value[..n];
      forall k | 0 <= k < n {
        memory[origin + k] := bytes[k];
      }
      assert memory[..] == Place(old(memory[..]), bytes, origin);
      r := if n == 0 then EmptyROM else OK;
    }

    /** `sc8_loadFile`: `sc8_loadFilePad` at the program start, 512. */
    method LoadFile(file: Option<seq<u8>>) returns (r: LoadFileResult)
      requires Valid()
      modifies memory
      ensures r == LoadOutcome(file, ProgramStart)
      ensures Model() == old(Model()).(memory := LoadedMemory(old(memory[..]), file, ProgramStart))
    {
      r := LoadFilePad(file, ProgramStart);
    }

    /** `sc8_updateKeyArray`: the host writes the key matrix it observes. */
    method RefreshKeys(keys: seq<bool>)
      requires Valid() && |keys| == 16
      modifies key
      ensures key[..] == keys
    {
      forall k | 0 <= k < 16 {
        key[k] := keys[k];
      }
    }

    /** The key scan of FX0A (`for key in 0..16: if key[key] ...`) when some key is down. */
    method FirstPressed() returns (k: nat)
      requires Valid() && exists j :: 0 <= j < 16 && key[j]
      ensures k < 16 && key[k]
      ensures forall j :: 0 <= j < k ==> !key[j]
    {
      k := 0;
      while k < 16 && !key[k]
        invariant 0 <= k <= 16
        invariant forall j :: 0 <= j < k ==> !key[j]
      {
        k := k + 1;
      }
    }

    /** DXYN: `n` rows of eight pixels at (V[X], V[Y]), rows taken from `memory[row]`. */
    method DrawSprite(x: Nibble, y: Nibble, n: Nibble)
      requires Valid() && SpriteFits(v[x], v[y], n)
      modifies gfx, v
      ensures var d := Blit(old(gfx[..]), memory[..n], old(v[x]), old(v[y]), n);
        gfx[..] == d.screen && v[..] == old(v[..])[Flag := Bool8(d.collision)]
    {
      var x0, y0 := v[x], v[y];
      v[Flag] := 0;
      DrawRows(x0, y0, n, old(gfx[..]), memory[..n], old(v[..]));
      assert Shows(Blit(old(gfx[..]), memory[..n], x0, y0, n), old(v[..]));
    }

    /** The display holds `d.screen` and VF holds `d.collision`; the other registers are those of `v0`. */
    ghost predicate Shows(d: Drawn, v0: seq<u8>)
      reads this, gfx, v
      requires Valid() && |v0| == 16
    {
      gfx[..] == d.screen && v[..] == v0[Flag := Bool8(d.collision)]
    }

    /** The outer DXYN loop, after the flag has been cleared. */
    method DrawRows(x0: u8, y0: u8, n: Nibble, ghost g0: seq<bool>, ghost rows: seq<u8>, ghost v0: seq<u8>)
      requires Valid() && |g0| == ScreenSize && |rows| == n && SpriteFits(x0, y0, n)
      requires rows == memory[..n] && |v0| == 16
      requires Shows(Drawn(g0, false), v0)
      modifies gfx, v
      ensures Shows(Blit(g0, rows, x0, y0, n), v0)
    {
      var row := 0;
      while row < n
        invariant 0 <= row <= n
        invariant Shows(Blit(g0, rows, x0, y0, row), v0)
      {
        NextRow(x0, y0, row, g0, rows, v0);
        row := row + 1;
      }
    }

    /** One pass of the outer DXYN loop: sprite row `row` is read from `memory[row]`. */
    method NextRow(x0: u8, y0: u8, row: nat, ghost g0: seq<bool>, ghost rows: seq<u8>, ghost v0: seq<u8>)
      requires Valid() && |g0| == ScreenSize && row < |rows| <= 16 && SpriteFits(x0, y0, |rows|)
      requires rows == memory[..|rows|] && |v0| == 16
      requires Shows(Blit(g0, rows, x0, y0, row), v0)
      modifies gfx, v
      ensures Shows(Blit(g0, rows, x0, y0, row + 1), v0)
    {
      var bits := memory[0 + row];
      assert bits == rows[row] && RowFits(x0, y0, row);
      ghost var d := Blit(g0, rows, x0, y0, row);
      DrawRow(x0, y0, row, bits, d);
      OverwriteTwice(v0, Flag, Bool8(d.collision),
        Bool8(Blit(g0, rows, x0, y0, row + 1).collision));
    }

    /** The inner DXYN loop over the eight pixels of sprite row `row`. */
    method DrawRow(x0: u8, y0: u8, row: nat, bits: u8, ghost start: Drawn)
      requires Valid() && |start.screen| == ScreenSize && RowFits(x0, y0, row)
      requires gfx[..] == start.screen && v[Flag] == Bool8(start.collision)
      modifies gfx, v
      ensures var d := BlitRow(start, bits, x0, y0, row, 8);
        gfx[..] == d.screen && v[..] == old(v[..])[Flag := Bool8(d.collision)]
    {
      var col := 0;
      while col < 8
        invariant 0 <= col <= 8
        invariant gfx[..] == BlitRow(start, bits, x0, y0, row, col).screen
        invariant v[..] == old(v[..])[Flag := Bool8(BlitRow(start, bits, x0, y0, row, col).collision)]
      {
        var pixel := SpriteBit(bits, col);
        var index := CellIndex(x0, y0, row, col);
        v[Flag] := Bool8(pixel && gfx[index]);
        gfx[index] := gfx[index] != pixel;
        col := col + 1;
      }
    }

    /** The FX55 loop: `memory[i + k] = v[k]` for `k < x`. */
    method StoreRegisters(x: Nibble)
      requires Valid() && (x == 0 || i + x <= MemorySize)
      modifies memory
      ensures memory[..] == Dump(old(memory[..]), v[..], i, x)
    {
      var k := 0;
      while k < x
        invariant 0 <= k <= x
        invariant memory[..] == Dump(old(memory[..]), v[..], i, k)
      {
        memory[i + k] := v[k];
        k := k + 1;
      }
    }

    /** FX33: the hundreds, tens and units of VX at `i`, `i + 1` and `i + 2`. */
    method StoreDigits(x: Nibble)
      requires Valid() && i + 2 < MemorySize
      modifies memory
      ensures memory[..] == WriteBcd(old(memory[..]), i, v[x])
    {
      var d := v[x];
      memory[i] := d / 100;
      memory[i + 1] := (d / 10) % 10;
      memory[i + 2] := (d % 100) % 10;
      assert memory[..] == old(memory[..])[i := d / 100][i + 1 := (d / 10) % 10][i + 2 := (d % 100) % 10];
    }

    /** The FX65 loop: `v[k] = memory[i + k]` for `k < x`. */
    method LoadRegisters(x: Nibble)
      requires Valid() && (x == 0 || i + x <= MemorySize)
      modifies v
      ensures v[..] == Restore(old(v[..]), memory[..], i, x)
    {
      var k := 0;
      while k < x
        invariant 0 <= k <= x
        invariant v[..] == Restore(old(v[..]), memory[..], i, k)
      {
        v[k] := memory[i + k];
        k := k + 1;
      }
    }

    /** The 8XY_ cases, in the order the C reads and writes VX, VY and VF. */
    method Arith(alu: AluOp, x: Nibble, y: Nibble)
      requires Valid()
      modifies v
      ensures v[..] == AluResult(old(v[..]), alu, x, y)
    {
      match alu
      case Assign => v[x] := y;
      case Or => v[x] := Or8(v[x], y);
      case And => v[x] := And8(v[x], y);
      case Xor => v[x] := Xor8(v[x], y);
      case AddCarry =>
        var vx: int, vy: int := v[x], v[y];
        var sum := vx + vy;
        v[Flag] := Bool8(sum > 255);
        v[x] := sum % 256;
      case Sub =>
        var vx: int, vy: int := v[x], v[y];
        v[Flag] := Bool8(vx > vy);
        v[x] := (vx - vy) % 256;
      case ShiftRight =>
        var vx := v[x];
        v[Flag] := Lsb(vx);
        v[x] := v[x] / 2;
      case SubReverse =>
        var vx: int, vy: int := v[x], v[y];
        v[Flag] := Bool8(vy > vx);
        v[x] := (vy - vx) % 256;
      case ShiftLeft =>
        var vx := v[x];
        v[Flag] := Msb(vx);
        v[x] := (v[x] as int * 2) % 256;
    }

    /** The body of the big `switch` of `sc8_step` for one decoded instruction. */
    method Dispatch(ins: Instr, rng: Generator)
      requires Valid() && pc <= MaxFetch && Defined(Model(), ins)
      modifies this, memory, gfx, v, stack, rng
      ensures beeps == old(beeps)
      ensures rng.state == if ins.Random? then XorShift(old(rng.state)) else old(rng.state)
      ensures Model() == Execute(old(Model()), ins, LowByte(rng.state))
    {
      if IsControl(ins) {
        if ins.Cls? || ins.Ret? || ins.Call? {
          ExecScreenStack(ins);
        } else {
          ExecJump(ins);
        }
      } else if IsSkip(ins) {
        ExecSkip(ins);
      } else if IsMemory(ins) {
        if ins.Draw? || ins.StoreBcd? || ins.StoreRegs? || ins.LoadRegs? {
          ExecMemory(ins);
        } else {
          ExecIndex(ins);
        }
      } else if ins.Random? {
        ExecRandom(ins.x, ins.kk, rng);
      } else if ins.SetDelay? || ins.SetSound? {
        ExecTimers(ins, LowByte(rng.state));
      } else {
        ExecRegisters(ins, LowByte(rng.state));
      }
    }

    /** 00E0, 00EE and 2NNN: the display and the stack. */
    method ExecScreenStack(ins: Instr)
      requires Valid() && pc <= MaxFetch && Defined(Model(), ins)
      requires ins.Cls? || ins.Ret? || ins.Call?
      modifies this, gfx, stack
      ensures beeps == old(beeps)
      ensures Model() == ExecuteControl(old(Model()), ins)
    {
      match ins
      case Cls =>
        forall c | 0 <= c < gfx.Length {
          gfx[c] := false;
        }
        drawFlag := true;
        pc := pc + 2;
      case Ret =>
        pc := stack[sp];
        sp := (sp as int - 1) % 256;
        pc := pc + 2;
      case Call(nnn) =>
        stack[sp] := pc % 256;
        sp := sp + 1;
        pc := nnn;
    }

    /** DXYN, FX33, FX55 and FX65: the cases with loops over the display or memory. */
    method ExecMemory(ins: Instr)
      requires Valid() && pc <= MaxFetch && Defined(Model(), ins)
      requires ins.Draw? || ins.StoreBcd? || ins.StoreRegs? || ins.LoadRegs?
      modifies this, memory, gfx, v
      ensures beeps == old(beeps)
      ensures Model() == ExecuteMemory(old(Model()), ins)
    {
      match ins {
        case Draw(x, y, n) =>
          DrawSprite(x, y, n);
          drawFlag := true;
        case StoreBcd(x) =>
          StoreDigits(x);
        case StoreRegs(x) =>
          StoreRegisters(x);
        case LoadRegs(x) =>
          LoadRegisters(x);
      }
      pc := pc + 2;
    }

    /** CXKK: the low byte of the next generator word, masked with KK. */
    method ExecRandom(x: Nibble, kk: u8, rng: Generator)
      requires Valid() && pc <= MaxFetch
      modifies this, v, rng
      ensures beeps == old(beeps) && rng.state == XorShift(old(rng.state))
      ensures Model() == ExecuteRegister(old(Model()), Random(x, kk), LowByte(rng.state))
    {
      var r := rng.Next();
      v[x] := And8(LowByte(r), kk);
      pc := pc + 2;
    }

    /** The cases that write a register and step past the opcode. */
    method ExecRegisters(ins: Instr, ghost rnd: u8)
      requires Valid() && pc <= MaxFetch && Defined(Model(), ins)
      requires ins.LoadImm? || ins.AddImm? || ins.Alu? || ins.ReadDelay? || ins.WaitKey?
      modifies this, v
      ensures beeps == old(beeps)
      ensures Model() == ExecuteRegister(old(Model()), ins, rnd)
    {
      match ins {
        case LoadImm(x, kk) =>
          v[x] := kk;
        case AddImm(x, kk) =>
          v[x] := (v[x] as int + kk) % 256;
        case Alu(alu, x, y) =>
          Arith(alu, x, y);
        case ReadDelay(x) =>
          v[x] := dt;
        case WaitKey(x) =>
          var k := FirstPressed();
          assert k == FirstDown(key[..], 0);
          v[x] := k;
      }
      pc := pc + 2;
    }

    /** ANNN, FX1E and FX29: the cases that write the index register. */
    method ExecIndex(ins: Instr)
      requires Valid() && pc <= MaxFetch
      requires ins.LoadIndex? || ins.AddIndex? || ins.FontGlyph?
      modifies this
      ensures beeps == old(beeps)
      ensures Model() == ExecuteMemory(old(Model()), ins)
    {
      ghost var s := Model();
      match ins {
        case LoadIndex(nnn) =>
          i := nnn;
        case AddIndex(x) =>
          i := (i + v[x]) % 0x1_0000;
        case FontGlyph(x) =>
          i := v[x] as int * 5;
      }
      pc := pc + 2;
      assert ExecuteMemory(s, ins) == s.(i := i, pc := pc);
    }

    /** FX15 and FX18: the cases that load a timer from VX. */
    method ExecTimers(ins: Instr, ghost rnd: u8)
      requires Valid() && pc <= MaxFetch
      requires ins.SetDelay? || ins.SetSound?
      modifies this
      ensures beeps == old(beeps)
      ensures Model() == ExecuteRegister(old(Model()), ins, rnd)
    {
      match ins {
        case SetDelay(x) =>
          dt := v[x];
        case SetSound(x) =>
          st := v[x];
      }
      pc := pc + 2;
    }

    /** 1NNN, BNNN, FXFF and the opcodes no case matches. */
    method ExecJump(ins: Instr)
      requires Valid() && pc <= MaxFetch
      requires ins.Jump? || ins.JumpOffset? || ins.Spin? || ins.Unknown?
      modifies this
      ensures beeps == old(beeps)
      ensures Model() == ExecuteControl(old(Model()), ins)
    {
      ghost var s := Model();
      match ins
      case Jump(nnn) =>
        pc := nnn;
        assert ExecuteControl(s, ins) == s.(pc := nnn);
      case JumpOffset(nnn) =>
        pc := nnn + v[0];
        assert ExecuteControl(s, ins) == s.(pc := nnn + s.v[0]);
      case Spin =>
        assert ExecuteControl(s, ins) == s;
      case Unknown(op) =>
        pc := pc + 2;
        if Family(op) == 0x8 {
          pc := pc + 2;
        }
        assert ExecuteControl(s, ins) == s.(pc := pc);
    }

    /** The conditional skips: past the next opcode when the test holds. */
    method ExecSkip(ins: Instr)
      requires Valid() && pc <= MaxFetch && Defined(Model(), ins)
      requires ins.SkipEqImm? || ins.SkipNeImm? || ins.SkipEqReg? || ins.SkipNeReg? ||
               ins.SkipKeyDown? || ins.SkipKeyUp?
      modifies this
      ensures beeps == old(beeps)
      ensures Model() == ExecuteSkip(old(Model()), ins)
    {
      ghost var s := Model();
      match ins {
        case SkipEqImm(x, kk) =>
          pc := pc + if v[x] == kk then 4 else 2;
        case SkipNeImm(x, kk) =>
          pc := pc + if v[x] != kk then 4 else 2;
        case SkipEqReg(x, y) =>
          pc := pc + if v[x] == v[y] then 4 else 2;
        case SkipNeReg(x, y) =>
          pc := pc + if v[x] != v[y] then 4 else 2;
        case SkipKeyDown(x) =>
          pc := pc + if key[v[x]] then 4 else 2;
        case SkipKeyUp(x) =>
          pc := pc + if !key[v[x]] then 4 else 2;
      }
      assert ExecuteSkip(s, ins) == s.(pc := pc);
    }

    /** The end of `sc8_step`: count both timers down, beeping while the sound timer runs. */
    method TickTimers()
      requires Valid()
      modifies this
      ensures Model() == Tick(old(Model()))
      ensures beeps == old(beeps) + (if old(st) > 0 then 1 else 0)
    {
      if dt > 0 {
        dt := dt - 1;
      }
      if st > 0 {
        beeps := beeps + 1;
        st := st - 1;
      }
    }

    /**
     * `sc8_step`: one fetch, key refresh, execute and tick. The result is false
     * exactly when the opcode took an "Unknown opcode" branch.
     */
    method Step(rng: Generator, keys: seq<bool>) returns (known: bool)
      requires Valid() && Ready(Model(), keys)
      modifies this, memory, gfx, key, v, stack, rng
      ensures var o := StepSpec(old(Model()), keys, old(rng.state));
        Model() == o.next && rng.state == o.seed && known == o.known &&
        beeps == old(beeps) + (if o.beep then 1 else 0)
    {
      opcode := Fetch(memory[pc], memory[pc + 1]);
      RefreshKeys(keys);
      assert Model() == Fetched(old(Model()), keys);
      var ins := Decode(opcode);
      Dispatch(ins, rng);
      known := !ins.Unknown?;
      TickTimers();
    }
  }
}

=== FILE: opcode.dfy ===
/**
 * The 16-bit CHIP-8 instruction word: the big-endian fetch, the field macros
 * (`SC8_N`, `SC8_NNN`, `SC8_Vx`, `SC8_Vy`, `SC8_KK`) and the nested switch of
 * `sc8_step` that picks an instruction from the fields, as a decoder into `Instr`.
 */
module Opcode {
  import opened Bytes

  /** A register number or any other 4-bit field. */
  type Nibble = n: int | 0 <= n < 16

  /** A 12-bit address field. */
  type Addr = a: int | 0 <= a < 4096

  /** `memory[pc] << 8 | memory[pc + 1]`; the two bytes do not overlap, so the OR is a sum. */
  function Fetch(hi: u8, lo: u8): (op: u16)
    ensures op / 256 == hi && op % 256 == lo
  {
    hi * 256 + lo
  }

  /** `opcode & 0xF000`, shifted down: the switch of the outer `switch`. */
  function Family(op: u16): (f: Nibble)
  {
    op / 4096
  }

  /** `SC8_Vx`: bits 8..11. */
  function X(op: u16): Nibble
  {
    (op / 256) % 16
  }

  /** `SC8_Vy`: bits 4..7. */
  function Y(op: u16): Nibble
  {
    (op / 16) % 16
  }

  /** `SC8_N`: bits 0..3. */
  function N(op: u16): Nibble
  {
    op % 16
  }

  /** `SC8_KK`: the low byte. */
  function KK(op: u16): u8
  {
    op % 256
  }

  /** `SC8_NNN`: the low twelve bits. */
  function NNN(op: u16): Addr
  {
    op % 4096
  }

  /** Division by 4096 recovers the quotient and remainder of a decomposition. */
  lemma Div4096(a: nat, q: nat, r: nat)
    requires a == 4096 * q + r && r < 4096
    ensures a / 4096 == q && a % 4096 == r
  {
  }

  /** Division by 256 recovers the quotient and remainder of a decomposition. */
  lemma Div256(a: nat, q: nat, r: nat)
    requires a == 256 * q + r && r < 256
    ensures a / 256 == q && a % 256 == r
  {
  }

  /** Division by 16 recovers the quotient and remainder of a decomposition. */
  lemma Div16(a: nat, q: nat, r: nat)
    requires a == 16 * q + r && r < 16
    ensures a / 16 == q && a % 16 == r
  {
  }

  /** The fields split the word without overlap and without loss. */
  lemma {:induction false} FieldsRecompose(op: u16)
    ensures op == Family(op) * 4096 + X(op) * 256 + Y(op) * 16 + N(op)
    ensures KK(op) == Y(op) * 16 + N(op)
    ensures NNN(op) == X(op) * 256 + KK(op)
  {
    var b, n := op / 16, op % 16;
    var c, y := b / 16, b % 16;
    var f, x := c / 16, c % 16;
    Div4096(op, f, 256 * x + 16 * y + n);
    Div256(op, 16 * f + x, 16 * y + n);
  }

  /** A word assembled from four nibbles gives them back through the field macros. */
  lemma {:induction false} FieldsOf(op: u16, f: Nibble, x: Nibble, y: Nibble, n: Nibble)
    requires op == f * 4096 + x * 256 + y * 16 + n
    ensures Family(op) == f && X(op) == x && Y(op) == y && N(op) == n
    ensures KK(op) == y * 16 + n && NNN(op) == x * 256 + y * 16 + n
  {
    Div4096(op, f, 256 * x + 16 * y + n);
    Div256(op, 16 * f + x, 16 * y + n);
    Div16(op, 256 * f + 16 * x + y, n);
    Div16(16 * f + x, f, x);
    Div16(256 * f + 16 * x + y, 16 * f + x, y);
  }

  /** The eight-family arithmetic selected by the low nibble of an 8XY_ word. */
  datatype AluOp =
    | Assign      // 8XY0
    | Or          // 8XY1
    | And         // 8XY2
    | Xor         // 8XY3
    | AddCarry    // 8XY4
    | Sub         // 8XY5
    | ShiftRight  // 8XY6
    | SubReverse  // 8XY7
    | ShiftLeft   // 8XYE

  /** One decoded instruction, named after the branch of `sc8_step` that runs it. */
  datatype Instr =
    | Cls                             // 0__0
    | Ret                             // 0__E
    | Jump(nnn: Addr)                 // 1NNN
    | Call(nnn: Addr)                 // 2NNN
    | SkipEqImm(x: Nibble, kk: u8)    // 3XKK
    | SkipNeImm(x: Nibble, kk: u8)    // 4XKK
    | SkipEqReg(x: Nibble, y: Nibble) // 5XY_
    | LoadImm(x: Nibble, kk: u8)      // 6XKK
    | AddImm(x: Nibble, kk: u8)       // 7XKK
    | Alu(alu: AluOp, x: Nibble, y: Nibble) // 8XY0-8XY7, 8XYE
    | SkipNeReg(x: Nibble, y: Nibble) // 9XY_
    | LoadIndex(nnn: Addr)            // ANNN
    | JumpOffset(nnn: Addr)           // BNNN
    | Random(x: Nibble, kk: u8)       // CXKK
    | Draw(x: Nibble, y: Nibble, n: Nibble) // DXYN
    | SkipKeyDown(x: Nibble)          // EX9E
    | SkipKeyUp(x: Nibble)            // EXA1
    | ReadDelay(x: Nibble)            // FX07
    | WaitKey(x: Nibble)              // FX0A
    | SetDelay(x: Nibble)             // FX15
    | SetSound(x: Nibble)             // FX18
    | AddIndex(x: Nibble)             // FX1E
    | FontGlyph(x: Nibble)            // FX29
    | StoreBcd(x: Nibble)             // FX33
    | StoreRegs(x: Nibble)            // FX55
    | LoadRegs(x: Nibble)             // FX65
    | Spin                            // FXFF
    | Unknown(op: u16)                // every branch that reports "Unknown opcode"

  /** The nested `switch` of `sc8_step`, branch for branch. */
  function Decode(op: u16): Instr
  {
    var x, y, n, kk, nnn := X(op), Y(op), N(op), KK(op), NNN(op);
    match Family(op)
    case 0x0 => if n == 0x0 then Cls else if n == 0xE then Ret else Unknown(op)
    case 0x1 => Jump(nnn)
    case 0x2 => Call(nnn)
    case 0x3 => SkipEqImm(x, kk)
    case 0x4 => SkipNeImm(x, kk)
    case 0x5 => SkipEqReg(x, y)
    case 0x6 => LoadImm(x, kk)
    case 0x7 => AddImm(x, kk)
    case 0x8 =>
      (match n
       case 0x0 => Alu(Assign, x, y)
       case 0x1 => Alu(Or, x, y)
       case 0x2 => Alu(And, x, y)
       case 0x3 => Alu(Xor, x, y)
       case 0x4 => Alu(AddCarry, x, y)
       case 0x5 => Alu(Sub, x, y)
       case 0x6 => Alu(ShiftRight, x, y)
       case 0x7 => Alu(SubReverse, x, y)
       case 0xE => Alu(ShiftLeft, x, y)
       case _ => Unknown(op))
    case 0x9 => SkipNeReg(x, y)
    case 0xA => LoadIndex(nnn)
    case 0xB => JumpOffset(nnn)
    case 0xC => Random(x, kk)
    case 0xD => Draw(x, y, n)
    case 0xE =>
      if kk == 0x9E then SkipKeyDown(x)
      else if kk == 0xA1 then SkipKeyUp(x)
      else Unknown(op)
    case 0xF =>
      (match kk
       case 0x07 => ReadDelay(x)
       case 0x0A => WaitKey(x)
       case 0x15 => SetDelay(x)
       case 0x18 => SetSound(x)
       case 0x1E => AddIndex(x)
       case 0x29 => FontGlyph(x)
       case 0x33 => StoreBcd(x)
       case 0x55 => StoreRegs(x)
       case 0x65 => LoadRegs(x)
       case 0xFF => Spin
       case _ => Unknown(op))
    case _ => Unknown(op) // the outer `default`, which no family reaches
  }

  /** The low nibble that selects an eight-family operation. */
  function AluCode(alu: AluOp): Nibble
  {
    match alu
    case Assign => 0x0
    case Or => 0x1
    case And => 0x2
    case Xor => 0x3
    case AddCarry => 0x4
    case Sub => 0x5
    case ShiftRight => 0x6
    case SubReverse => 0x7
    case ShiftLeft => 0xE
  }

  /**
   * The canonical word of an instruction, as Cowgod's table writes it
   * (00E0 and 00EE with Y = E, the ignored N of 5XY0 and 9XY0 and the
   * ignored X of FXFF set to zero).
   */
  function Encode(ins: Instr): u16
  {
    match ins
    case Cls => 0x00E0
    case Ret => 0x00EE
    case Jump(nnn) => 0x1000 + nnn
    case Call(nnn) => 0x2000 + nnn
    case SkipEqImm(x, kk) => 0x3000 + x * 256 + kk
    case SkipNeImm(x, kk) => 0x4000 + x * 256 + kk
    case SkipEqReg(x, y) => 0x5000 + x * 256 + y * 16
    case LoadImm(x, kk) => 0x6000 + x * 256 + kk
    case AddImm(x, kk) => 0x7000 + x * 256 + kk
    case Alu(alu, x, y) => 0x8000 + x * 256 + y * 16 + AluCode(alu)
    case SkipNeReg(x, y) => 0x9000 + x * 256 + y * 16
    case LoadIndex(nnn) => 0xA000 + nnn
    case JumpOffset(nnn) => 0xB000 + nnn
    case Random(x, kk) => 0xC000 + x * 256 + kk
    case Draw(x, y, n) => 0xD000 + x * 256 + y * 16 + n
    case SkipKeyDown(x) => 0xE09E + x * 256
    case SkipKeyUp(x) => 0xE0A1 + x * 256
    case ReadDelay(x) => 0xF007 + x * 256
    case WaitKey(x) => 0xF00A + x * 256
    case SetDelay(x) => 0xF015 + x * 256
    case SetSound(x) => 0xF018 + x * 256
    case AddIndex(x) => 0xF01E + x * 256
    case FontGlyph(x) => 0xF029 + x * 256
    case StoreBcd(x) => 0xF033 + x * 256
    case StoreRegs(x) => 0xF055 + x * 256
    case LoadRegs(x) => 0xF065 + x * 256
    case Spin => 0xF0FF
    case Unknown(op) => op
  }

  /** A byte as its two nibbles. */
  lemma SplitByte(kk: u8)
    ensures 0 <= kk / 16 < 16 && kk == (kk / 16) * 16 + kk % 16
  {
  }

  /** A 12-bit address as its three nibbles. */
  lemma SplitAddr(nnn: Addr)
    ensures 0 <= nnn / 256 < 16 && 0 <= (nnn / 16) % 16 < 16
    ensures nnn == (nnn / 256) * 256 + ((nnn / 16) % 16) * 16 + nnn % 16
  {
    assert nnn % 256 == ((nnn / 16) % 16) * 16 + nnn % 16;
  }

  /** Decoding the canonical word of a recognised instruction gives the instruction back. */
  lemma {:induction false} DecodeEncode(ins: Instr)
    requires !ins.Unknown?
    ensures Decode(Encode(ins)) == ins
  {
    if ins.Cls? || ins.Ret? || ins.Jump? || ins.Call? {
      DecodeEncodeCalls(ins);
    } else if ins.SkipEqImm? || ins.SkipNeImm? || ins.SkipEqReg? || ins.LoadImm? || ins.AddImm? {
      DecodeEncodeImmediates(ins);
    } else if ins.Alu? || ins.SkipNeReg? || ins.LoadIndex? || ins.JumpOffset? {
      DecodeEncodeMiddle(ins);
    } else if ins.Random? || ins.Draw? || ins.SkipKeyDown? || ins.SkipKeyUp? {
      DecodeEncodeDevices(ins);
    } else if ins.ReadDelay? || ins.WaitKey? || ins.SetDelay? || ins.SetSound? || ins.AddIndex? {
      DecodeEncodeTimers(ins);
    } else {
      DecodeEncodeStores(ins);
    }
  }

  /** `DecodeEncode` for the 0, 1 and 2 families. */
  lemma {:induction false} DecodeEncodeCalls(ins: Instr)
    requires ins.Cls? || ins.Ret? || ins.Jump? || ins.Call?
    ensures Decode(Encode(ins)) == ins
  {
    match ins
    case Cls => FieldsOf(Encode(ins), 0x0, 0x0, 0xE, 0x0);
    case Ret => FieldsOf(Encode(ins), 0x0, 0x0, 0xE, 0xE);
    case Jump(nnn) => SplitAddr(nnn); FieldsOf(Encode(ins), 0x1, nnn / 256, (nnn / 16) % 16, nnn % 16);
    case Call(nnn) => SplitAddr(nnn); FieldsOf(Encode(ins), 0x2, nnn / 256, (nnn / 16) % 16, nnn % 16);
  }

  /** `DecodeEncode` for the 3-7 families. */
  lemma {:induction false} DecodeEncodeImmediates(ins: Instr)
    requires ins.SkipEqImm? || ins.SkipNeImm? || ins.SkipEqReg? || ins.LoadImm? || ins.AddImm?
    ensures Decode(Encode(ins)) == ins
  {
    match ins
    case SkipEqImm(x, kk) => SplitByte(kk); FieldsOf(Encode(ins), 0x3, x, kk / 16, kk % 16);
    case SkipNeImm(x, kk) => SplitByte(kk); FieldsOf(Encode(ins), 0x4, x, kk / 16, kk % 16);
    case SkipEqReg(x, y) => FieldsOf(Encode(ins), 0x5, x, y, 0x0);
    case LoadImm(x, kk) => SplitByte(kk); FieldsOf(Encode(ins), 0x6, x, kk / 16, kk % 16);
    case AddImm(x, kk) => SplitByte(kk); FieldsOf(Encode(ins), 0x7, x, kk / 16, kk % 16);
  }

  /** `DecodeEncode` for the 8-B families. */
  lemma {:induction false} DecodeEncodeMiddle(ins: Instr)
    requires ins.Alu? || ins.SkipNeReg? || ins.LoadIndex? || ins.JumpOffset?
    ensures Decode(Encode(ins)) == ins
  {
    match ins
    case Alu(alu, x, y) => FieldsOf(Encode(ins), 0x8, x, y, AluCode(alu));
    case SkipNeReg(x, y) => FieldsOf(Encode(ins), 0x9, x, y, 0x0);
    case LoadIndex(nnn) => SplitAddr(nnn); FieldsOf(Encode(ins), 0xA, nnn / 256, (nnn / 16) % 16, nnn % 16);
    case JumpOffset(nnn) => SplitAddr(nnn); FieldsOf(Encode(ins), 0xB, nnn / 256, (nnn / 16) % 16, nnn % 16);
  }

  /** `DecodeEncode` for the C, D and E families. */
  lemma {:induction false} DecodeEncodeDevices(ins: Instr)
    requires ins.Random? || ins.Draw? || ins.SkipKeyDown? || ins.SkipKeyUp?
    ensures Decode(Encode(ins)) == ins
  {
    match ins
    case Random(x, kk) => SplitByte(kk); FieldsOf(Encode(ins), 0xC, x, kk / 16, kk % 16);
    case Draw(x, y, n) => FieldsOf(Encode(ins), 0xD, x, y, n);
    case SkipKeyDown(x) => FieldsOf(Encode(ins), 0xE, x, 0x9, 0xE);
    case SkipKeyUp(x) => FieldsOf(Encode(ins), 0xE, x, 0xA, 0x1);
  }

  /** `DecodeEncode` for FX07, FX0A, FX15, FX18 and FX1E. */
  lemma {:induction false} DecodeEncodeTimers(ins: Instr)
    requires ins.ReadDelay? || ins.WaitKey? || ins.SetDelay? || ins.SetSound? || ins.AddIndex?
    ensures Decode(Encode(ins)) == ins
  {
    match ins
    case ReadDelay(x) => FieldsOf(Encode(ins), 0xF, x, 0x0, 0x7);
    case WaitKey(x) => FieldsOf(Encode(ins), 0xF, x, 0x0, 0xA);
    case SetDelay(x) => FieldsOf(Encode(ins), 0xF, x, 0x1, 0x5);
    case SetSound(x) => FieldsOf(Encode(ins), 0xF, x, 0x1, 0x8);
    case AddIndex(x) => FieldsOf(Encode(ins), 0xF, x, 0x1, 0xE);
  }

  /** `DecodeEncode` for FX29, FX33, FX55, FX65 and FXFF. */
  lemma {:induction false} DecodeEncodeStores(ins: Instr)
    requires ins.FontGlyph? || ins.StoreBcd? || ins.StoreRegs? || ins.LoadRegs? || ins.Spin?
    ensures Decode(Encode(ins)) == ins
  {
    match ins
    case FontGlyph(x) => FieldsOf(Encode(ins), 0xF, x, 0x2, 0x9);
    case StoreBcd(x) => FieldsOf(Encode(ins), 0xF, x, 0x3, 0x3);
    case StoreRegs(x) => FieldsOf(Encode(ins), 0xF, x, 0x5, 0x5);
    case LoadRegs(x) => FieldsOf(Encode(ins), 0xF, x, 0x6, 0x5);
    case Spin => FieldsOf(Encode(ins), 0xF, 0x0, 0xF, 0xF);
  }

  /**
   * The decoder looks only at some fields: every 0__0 word clears the screen,
   * every 0__E word returns, and 5XY_ and 9XY_ ignore their low nibble.
   */
  lemma LooseDecoding(op: u16)
    ensures Family(op) == 0x0 && N(op) == 0x0 ==> Decode(op) == Cls
    ensures Family(op) == 0x0 && N(op) == 0xE ==> Decode(op) == Ret
    ensures Family(op) == 0x5 ==> Decode(op) == SkipEqReg(X(op), Y(op))
    ensures Family(op) == 0x9 ==> Decode(op) == SkipNeReg(X(op), Y(op))
  {
  }

  /**
   * Only the 0, 8, E and F families have an "Unknown opcode" branch: the outer
   * `default` of the switch is dead code.
   */
  lemma UnknownFamilies(op: u16)
    ensures Decode(op).Unknown? ==> Family(op) in {0x0, 0x8, 0xE, 0xF}
    ensures Decode(op).Unknown? ==> Decode(op).op == op
  {
  }
}

=== FILE: registers.dfy ===
/**
 * Laws of the register instructions of `sc8_step`, stated over the pure model:
 * what the 8XY_ family leaves in VX and VF, what 7XKK leaves alone, and how
 * FX55 and FX65 move registers to and from memory.
 */
module RegisterLaws {
  import opened Bytes
  import opened Opcode
  import opened Chip8Spec

  /** The registers other than `x` and VF are the same in `a` and `b`. */
  predicate OthersKept(a: seq<u8>, b: seq<u8>, x: Nibble)
    requires |a| == 16 && |b| == 16
  {
    forall j :: 0 <= j < 16 && j != x && j != Flag ==> a[j] == b[j]
  }

  /**
   * 8XY0 as written loads the field Y, not VY, into VX: the result does not
   * depend on VY at all, and it differs from VY whenever VY is not Y.
   */
  lemma AssignLoadsNibble(v: seq<u8>, x: Nibble, y: Nibble)
    requires |v| == 16
    ensures var r := AluResult(v, Assign, x, y);
      r[x] == y && (v[y] != y ==> r[x] != v[y]) &&
      OthersKept(r, v, x) && (x != Flag ==> r[Flag] == v[Flag])
  {
  }

  /**
   * 8XY4: the byte left in VX and the carry left in VF together make the full
   * sum, and VF is 1 exactly when the sum does not fit in a byte (X is not F).
   */
  lemma AddCarryConserves(v: seq<u8>, x: Nibble, y: Nibble)
    requires |v| == 16 && x != Flag
    ensures var r := AluResult(v, AddCarry, x, y);
      r[x] as int + 256 * r[Flag] as int == v[x] as int + v[y] as int &&
      (r[Flag] == 1 <==> v[x] as int + v[y] as int > 255) && OthersKept(r, v, x)
  {
  }

  /**
   * With X = F the result is written after the flag, so 8FY4, 8FY5 and 8FY7
   * leave the low byte of the result in VF and the carry or borrow is lost.
   */
  lemma ResultOverwritesFlag(v: seq<u8>, y: Nibble)
    requires |v| == 16
    ensures AluResult(v, AddCarry, Flag, y)[Flag] == (v[Flag] as int + v[y] as int) % 256
    ensures AluResult(v, Sub, Flag, y)[Flag] == (v[Flag] as int - v[y] as int) % 256
    ensures AluResult(v, SubReverse, Flag, y)[Flag] == (v[y] as int - v[Flag] as int) % 256
    ensures forall alu :: alu in {AddCarry, Sub, SubReverse} ==> OthersKept(AluResult(v, alu, Flag, y), v, Flag)
  {
  }

  /**
   * 8XY5: VX becomes VX - VY modulo 256 and VF is 1 exactly when VX > VY; when
   * the two are equal VF is 0, so VF is not "no borrow" (X is not F).
   */
  lemma SubBorrow(v: seq<u8>, x: Nibble, y: Nibble)
    requires |v| == 16 && x != Flag
    ensures var r := AluResult(v, Sub, x, y);
      r[x] as int == v[x] as int - v[y] as int + (if v[x] >= v[y] then 0 else 256) &&
      (r[Flag] == 1 <==> v[x] > v[y]) && (r[Flag] == 0 <==> v[x] <= v[y]) && OthersKept(r, v, x)
  {
  }

  /** 8XY7: VX becomes VY - VX modulo 256 and VF is 1 exactly when VY > VX (X is not F). */
  lemma SubReverseBorrow(v: seq<u8>, x: Nibble, y: Nibble)
    requires |v| == 16 && x != Flag
    ensures var r := AluResult(v, SubReverse, x, y);
      r[x] as int == v[y] as int - v[x] as int + (if v[y] >= v[x] then 0 else 256) &&
      (r[Flag] == 1 <==> v[y] > v[x]) && OthersKept(r, v, x)
  {
  }

  /** 8XY6: the halved VX and the dropped bit in VF together give back VX (X is not F). */
  lemma ShiftRightConserves(v: seq<u8>, x: Nibble, y: Nibble)
    requires |v| == 16 && x != Flag
    ensures var r := AluResult(v, ShiftRight, x, y);
      2 * r[x] as int + r[Flag] as int == v[x] as int && r[Flag] < 2 && OthersKept(r, v, x)
  {
  }

  /** 8XYE: the doubled VX and the dropped bit in VF together give back twice VX (X is not F). */
  lemma ShiftLeftConserves(v: seq<u8>, x: Nibble, y: Nibble)
    requires |v| == 16 && x != Flag
    ensures var r := AluResult(v, ShiftLeft, x, y);
      r[x] as int + 256 * r[Flag] as int == 2 * v[x] as int && r[Flag] < 2 && OthersKept(r, v, x)
  {
  }

  /**
   * With X = F the shifts re-read VF after storing the dropped bit in it, so
   * 8FY6 always leaves 0 in VF and 8FYE leaves 0 or 2, never the shifted VF.
   */
  lemma ShiftsOfFlag(v: seq<u8>, y: Nibble)
    requires |v| == 16
    ensures AluResult(v, ShiftRight, Flag, y)[Flag] == 0
    ensures AluResult(v, ShiftLeft, Flag, y)[Flag] == 2 * Msb(v[Flag])
    ensures OthersKept(AluResult(v, ShiftRight, Flag, y), v, Flag)
    ensures OthersKept(AluResult(v, ShiftLeft, Flag, y), v, Flag)
  {
  }

  /** 7XKK adds without carry: VX wraps modulo 256 and VF is not touched (X is not F). */
  lemma AddImmKeepsFlag(s: State, x: Nibble, kk: u8, rnd: u8)
    requires s.WellFormed() && s.pc <= MaxFetch && x != Flag
    ensures var r := Execute(s, AddImm(x, kk), rnd);
      r == s.(v := r.v, pc := s.pc + 2) && |r.v| == 16 && r.v[Flag] == s.v[Flag] && r.v[x] == (s.v[x] as int + kk) % 256 && r.pc == s.pc + 2 &&
      OthersKept(r.v, s.v, x)
  {
  }

  /** 6XKK loads KK into VX, moves `pc` by 2 and changes nothing else. */
  lemma LoadImmWritesVx(s: State, x: Nibble, kk: u8, rnd: u8)
    requires s.WellFormed() && s.pc <= MaxFetch
    ensures var r := Execute(s, LoadImm(x, kk), rnd);
      r == s.(v := r.v, pc := s.pc + 2) && |r.v| == 16 && r.v[x] == kk && OthersKept(r.v, s.v, x) &&
      (x != Flag ==> r.v[Flag] == s.v[Flag])
  {
  }

  /** FX07 copies the delay timer into VX, moves `pc` by 2 and changes nothing else. */
  lemma ReadDelayWritesVx(s: State, x: Nibble, rnd: u8)
    requires s.WellFormed() && s.pc <= MaxFetch
    ensures var r := Execute(s, ReadDelay(x), rnd);
      r == s.(v := r.v, pc := s.pc + 2) && |r.v| == 16 && r.v[x] == s.dt && OthersKept(r.v, s.v, x) &&
      (x != Flag ==> r.v[Flag] == s.v[Flag])
  {
  }

  /**
   * FX0A with some key down stores the lowest pressed key in VX, moves `pc`
   * by 2 and changes nothing else.
   */
  lemma WaitKeyStoresLowest(s: State, x: Nibble, rnd: u8)
    requires s.WellFormed() && s.pc <= MaxFetch && exists k :: 0 <= k < 16 && s.key[k]
    ensures var r := Execute(s, WaitKey(x), rnd);
      r == s.(v := r.v, pc := s.pc + 2) && |r.v| == 16 && r.v[x] < 16 && s.key[r.v[x]] &&
      (forall k :: 0 <= k < r.v[x] ==> !s.key[k]) && OthersKept(r.v, s.v, x) &&
      (x != Flag ==> r.v[Flag] == s.v[Flag])
  {
  }

  /**
   * 8XY1, 8XY2 and 8XY3 as written combine VX with the field Y, so VY does not
   * take part: giving VY any other value (Y not X) leaves the same VX. No other
   * register changes, VF included (X is not F).
   */
  lemma BitwiseIgnoresVy(v: seq<u8>, alu: AluOp, x: Nibble, y: Nibble, w: u8)
    requires |v| == 16 && (alu == Or || alu == And || alu == Xor) && x != y && x != Flag
    ensures var r := AluResult(v, alu, x, y);
      AluResult(v[y := w], alu, x, y)[x] == r[x] && OthersKept(r, v, x) && r[Flag] == v[Flag]
  {
  }

  /** With the nibble Y as operand, 8XY2 always leaves a value below 16 in VX. */
  lemma AndWithNibble(a: u8, y: Nibble)
    ensures And8(a, y) < 16
  {
  }

  /** Every 8XY_ instruction writes the registers `AluResult` gives, moves `pc` by 2 and changes nothing else. */
  lemma AluStep(s: State, alu: AluOp, x: Nibble, y: Nibble, rnd: u8)
    requires s.WellFormed() && s.pc <= MaxFetch
    ensures Execute(s, Alu(alu, x, y), rnd) == s.(v := AluResult(s.v, alu, x, y), pc := s.pc + 2)
  {
  }

  /**
   * ANNN loads NNN into I, and FX1E adds VX to I in 16 bits: I wraps to a
   * smaller value exactly when the sum reaches 65536. Neither writes anything
   * but I and `pc`, and neither touches VF.
   */
  lemma IndexLoads(s: State, nnn: Addr, x: Nibble, rnd: u8)
    requires s.WellFormed() && s.pc <= MaxFetch
    ensures var r := Execute(s, LoadIndex(nnn), rnd); r == s.(i := nnn, pc := s.pc + 2)
    ensures var r := Execute(s, AddIndex(x), rnd);
      r == s.(i := r.i, pc := s.pc + 2) &&
      (s.i + s.v[x] < 0x1_0000 ==> r.i == s.i + s.v[x]) &&
      (s.i + s.v[x] >= 0x1_0000 ==> r.i == s.i + s.v[x] - 0x1_0000 && r.i < s.i)
  {
  }

  /**
   * FX55 then FX65 with the same X and I gives back registers V0..V(X-1); as
   * written neither loop touches VX itself, so the register count is X, not X + 1.
   */
  lemma DumpRestore(mem: seq<u8>, v: seq<u8>, w: seq<u8>, i: nat, x: Nibble)
    requires |v| == 16 && |w| == 16 && (x == 0 || i + x <= |mem|)
    ensures var r := Restore(w, Dump(mem, v, i, x), i, x);
      (forall k :: 0 <= k < x ==> r[k] == v[k]) && (forall k :: x <= k < 16 ==> r[k] == w[k])
  {
  }

  /** FX55 followed by FX65 leaves the register file as it was. */
  lemma {:induction false} StoreLoadRoundTrip(mem: seq<u8>, v: seq<u8>, i: nat, x: Nibble)
    requires |v| == 16 && (x == 0 || i + x <= |mem|)
    ensures Restore(v, Dump(mem, v, i, x), i, x) == v
  {
    var r := Restore(v, Dump(mem, v, i, x), i, x);
    assert forall k :: 0 <= k < 16 ==> r[k] == v[k];
  }

  /**
   * FX33 and FX55 write memory and FX65 writes registers; none of them moves I,
   * and each leaves the other of memory and registers as it was.
   */
  lemma MemoryOpsKeepIndex(s: State, ins: Instr, rnd: u8)
    requires s.WellFormed() && s.pc <= MaxFetch && Defined(s, ins)
    requires ins.StoreBcd? || ins.StoreRegs? || ins.LoadRegs?
    ensures var r := Execute(s, ins, rnd);
      r == s.(memory := r.memory, v := r.v, pc := s.pc + 2) &&
      r.i == s.i && r.gfx == s.gfx && r.sp == s.sp &&
      (ins.LoadRegs? ==> r.memory == s.memory && r.v == Restore(s.v, s.memory, s.i, ins.x)) &&
      (ins.StoreBcd? ==> r.v == s.v && r.memory == WriteBcd(s.memory, s.i, s.v[ins.x])) &&
      (ins.StoreRegs? ==> r.v == s.v && r.memory == Dump(s.memory, s.v, s.i, ins.x))
  {
  }

  /** FX33: three decimal digits at I, I + 1, I + 2 that spell VX; no other cell changes. */
  lemma BcdStoresDigits(mem: seq<u8>, i: nat, x: u8)
    requires i + 2 < |mem|
    ensures var r := WriteBcd(mem, i, x);
      r[i] < 10 && r[i + 1] < 10 && r[i + 2] < 10 &&
      100 * r[i] as int + 10 * r[i + 1] as int + r[i + 2] as int == x &&
      forall a :: 0 <= a < |mem| && !(i <= a < i + 3) ==> r[a] == mem[a]
  {
  }
}

=== FILE: spec.dfy ===
/**
 * The interpreter's state `sc8_state` as a value, and what `sc8_init`,
 * `sc8_loadRomPad`, `sc8_loadFilePad` and `sc8_step` do to it, as functions.
 * The class in module Chip8 runs the same operations in place and is proved
 * to agree with these functions.
 *
 * The semantics are those of the code as written, which departs from Cowgod's
 * Chip-8 Technical Reference v1.0 in several places (see the comments at
 * `AluResult`, `Blit`, `Execute`).
 */
module Chip8Spec {
  import opened Bytes
  import opened Opcode
  import opened XorRand

  const MemorySize: int := 4096
  const Width: int := 64
  const ScreenSize: int := 2048
  /** Where `sc8_init` points the program counter and `sc8_loadRom` copies a ROM. */
  const ProgramStart: int := 512
  /** The highest `pc` at which the two-byte fetch stays inside memory. */
  const MaxFetch: int := 4094
  /** VF, the flag register (`vf` shares its byte with `v[15]`). */
  const Flag: Nibble := 15

  /** `sc8_fontset`: the glyphs 0-F, five rows of four pixels each. */
  const Font: seq<u8> := [
    0xF0, 0x90, 0x90, 0x90, 0xF0, // 0
    0x20, 0x60, 0x20, 0x20, 0x70, // 1
    0xF0, 0x10, 0xF0, 0x80, 0xF0, // 2
    0xF0, 0x10, 0xF0, 0x10, 0xF0, // 3
    0x90, 0x90, 0xF0, 0x10, 0x10, // 4
    0xF0, 0x80, 0xF0, 0x10, 0xF0, // 5
    0xF0, 0x80, 0xF0, 0x90, 0xF0, // 6
    0xF0, 0x10, 0x20, 0x40, 0x40, // 7
    0xF0, 0x90, 0xF0, 0x90, 0xF0, // 8
    0xF0, 0x90, 0xF0, 0x10, 0xF0, // 9
    0xF0, 0x90, 0xF0, 0x90, 0x90, // A
    0xE0, 0x90, 0xE0, 0x90, 0xE0, // B
    0xF0, 0x80, 0x80, 0x80, 0xF0, // C
    0xE0, 0x90, 0x90, 0x90, 0xE0, // D
    0xF0, 0x80, 0xF0, 0x80, 0xF0, // E
    0xF0, 0x80, 0xF0, 0x80, 0x80  // F
  ]

  datatype Option<T> = None | Some(value: T)

  /** `sc8_state`. The stack slots are bytes, as the C declares them. */
  datatype State = State(
    memory: seq<u8>,
    gfx: seq<bool>,
    drawFlag: bool,
    key: seq<bool>,
    opcode: u16,
    v: seq<u8>,
    i: u16,
    pc: u16,
    dt: u8,
    st: u8,
    stack: seq<u8>,
    sp: u8)
  {
    /** The fixed sizes of the arrays. */
    predicate WellFormed()
    {
      |memory| == MemorySize && |gfx| == ScreenSize && |key| == 16 &&
      |v| == 16 && |stack| == 16
    }
  }

  /** The state `sc8_init` leaves: all zero, the font at 0, `pc` at 512. */
  function Initial(): (s: State)
    ensures s.WellFormed()
  {
    State(Font + seq(MemorySize - |Font|, _ => 0), seq(ScreenSize, _ => false), false,
          seq(16, _ => false), 0, seq(16, _ => 0), 0, ProgramStart, 0, 0, seq(16, _ => 0), 0)
  }

  /** Memory after `memcpy(memory + origin, rom, |rom|)`. */
  function Place(mem: seq<u8>, rom: seq<u8>, origin: nat): (r: seq<u8>)
    requires origin + |rom| <= |mem|
    ensures |r| == |mem|
    ensures forall k :: 0 <= k < |rom| ==> r[origin + k] == rom[k]
    ensures forall a :: 0 <= a < |mem| && !(origin <= a < origin + |rom|) ==> r[a] == mem[a]
  {
    mem[..origin] + rom + mem[origin + |rom|..]
  }

  /** `sc8_LoadFileResult` */
  datatype LoadFileResult = OK | EmptyROM | FopenError

  /** How many bytes `sc8_fread` delivers when asked for `MemorySize - origin` bytes of `file`. */
  function ReadCount(file: seq<u8>, origin: nat): (n: nat)
    requires origin <= MemorySize
    ensures n <= |file| && origin + n <= MemorySize
    ensures n == |file| || origin + n == MemorySize
  {
    if |file| < MemorySize - origin then |file| else MemorySize - origin
  }

  /**
   * The result of `sc8_loadFilePad` for a file that could not be opened (`None`)
   * or that reads as `bytes`: `return rom_size == 0;` turns `true` into
   * `EmptyROM` and `false` into `OK`.
   */
  function LoadOutcome(file: Option<seq<u8>>, origin: nat): (r: LoadFileResult)
    requires origin <= MemorySize
    ensures r == FopenError <==> file.None?
    ensures r == OK <==> file.Some? && |file.value| > 0 && origin < MemorySize
  {
    match file
    case None => FopenError
    case Some(bytes) => if ReadCount(bytes, origin) == 0 then EmptyROM else OK
  }

  /** Memory after `sc8_loadFilePad` has read `file` at `origin`. */
  function LoadedMemory(mem: seq<u8>, file: Option<seq<u8>>, origin: nat): (r: seq<u8>)
    requires |mem| == MemorySize && origin <= MemorySize
    ensures |r| == MemorySize
  {
    match file
    case None => mem
    case Some(bytes) => Place(mem, bytes[..ReadCount(bytes, origin)], origin)
  }

  /**
   * The register file after an 8XY_ instruction. As written, 8XY0-8XY3 combine
   * VX with the field Y itself, not with VY; the carry and borrow cases read
   * both operands before VF is written, while the shifts re-read VX after it.
   */
  function AluResult(v: seq<u8>, alu: AluOp, x: Nibble, y: Nibble): (r: seq<u8>)
    requires |v| == 16
    ensures |r| == 16
  {
    var vx: int, vy: int := v[x], v[y];
    match alu
    case Assign => v[x := y]
    case Or => v[x := Or8(vx, y)]
    case And => v[x := And8(vx, y)]
    case Xor => v[x := Xor8(vx, y)]
    case AddCarry =>
      var f := v[Flag := Bool8(vx + vy > 255)];
      f[x := (vx + vy) % 256]
    case Sub =>
      var f := v[Flag := Bool8(vx > vy)];
      f[x := (vx - vy) % 256]
    case ShiftRight =>
      var f := v[Flag := Lsb(vx)];
      f[x := (f[x] as int) / 2]
    case SubReverse =>
      var f := v[Flag := Bool8(vy > vx)];
      f[x := (vy - vx) % 256]
    case ShiftLeft =>
      var f := v[Flag := Msb(vx)];
      f[x := (f[x] as int * 2) % 256]
  }

  /** FX33's three digits: hundreds, tens, and units as `(x % 100) % 10`. */
  function Bcd(x: u8): (d: seq<u8>)
    ensures |d| == 3 && d[0] < 10 && d[1] < 10 && d[2] < 10
    ensures 100 * (d[0] as int) + 10 * (d[1] as int) + d[2] as int == x
  {
    var hundreds, rest := x / 100, x % 100;
    assert x == 100 * hundreds + 10 * (rest / 10) + rest % 10;
    assert x / 10 == 10 * hundreds + rest / 10;
    [hundreds, (x / 10) % 10, rest % 10]
  }

  /** Memory after FX33 stored the digits of `x` at `i`, `i + 1` and `i + 2`. */
  function WriteBcd(mem: seq<u8>, i: nat, x: u8): (r: seq<u8>)
    requires i + 2 < |mem|
    ensures |r| == |mem|
  {
    var d := Bcd(x);
    mem[i := d[0]][i + 1 := d[1]][i + 2 := d[2]]
  }

  /**
   * Memory after the FX55 loop has run `count` times: `memory[i + k] = v[k]`
   * for `k < count`, in increasing `k`.
   */
  function Dump(mem: seq<u8>, v: seq<u8>, i: nat, count: nat): (r: seq<u8>)
    requires |v| == 16 && count <= 16 && (count == 0 || i + count <= |mem|)
    ensures |r| == |mem|
    ensures forall k :: 0 <= k < count ==> r[i + k] == v[k]
    ensures forall a :: 0 <= a < |mem| && !(i <= a < i + count) ==> r[a] == mem[a]
    decreases count
  {
    if count == 0 then mem
    else Dump(mem, v, i, count - 1)[i + count - 1 := v[count - 1]]
  }

  /** Registers after the FX65 loop has run `count` times: `v[k] = memory[i + k]`. */
  function Restore(v: seq<u8>, mem: seq<u8>, i: nat, count: nat): (r: seq<u8>)
    requires |v| == 16 && count <= 16 && (count == 0 || i + count <= |mem|)
    ensures |r| == 16
    ensures forall k :: 0 <= k < count ==> r[k] == mem[i + k]
    ensures forall k :: count <= k < 16 ==> r[k] == v[k]
    decreases count
  {
    if count == 0 then v
    else Restore(v, mem, i, count - 1)[count - 1 := mem[i + count - 1]]
  }

  /**
   * The product `a * b`, written as repeated addition so that the solver does
   * not treat the display address as nonlinear arithmetic; `TimesIsProduct`
   * shows it is the product.
   */
  function Times(a: nat, b: nat): nat
  {
    if a == 0 then 0 else b + Times(a - 1, b)
  }

  lemma {:induction false} TimesIsProduct(a: nat, b: nat)
    ensures Times(a, b) == a * b
  {
    if a > 0 {
      TimesIsProduct(a - 1, b);
    }
  }

  /** The display cell DXYN toggles for pixel `col` of sprite row `row`: `(x + col) * ((y + row) * 64)`. */
  function CellIndex(x0: u8, y0: u8, row: nat, col: nat): nat
  {
    Times(x0 + col, (y0 + row) * Width)
  }

  /** Every cell an `n`-row sprite at (x0, y0) touches lies on the display. */
  predicate SpriteFits(x0: u8, y0: u8, n: nat)
  {
    forall row, col :: 0 <= row < n && 0 <= col < 8 ==> CellIndex(x0, y0, row, col) < ScreenSize
  }

  /** The display and the flag of the pixel last drawn. */
  datatype Drawn = Drawn(screen: seq<bool>, collision: bool)

  /** Every cell of sprite row `row` lies on the display. */
  predicate RowFits(x0: u8, y0: u8, row: nat)
  {
    forall col :: 0 <= col < 8 ==> CellIndex(x0, y0, row, col) < ScreenSize
  }

  /**
   * The first `c` pixels of the inner DXYN loop for sprite row `row`, most
   * significant bit first. Each pixel sets the flag to "this pixel is set and
   * its cell was on", overwriting the flag of the pixel before, and then XORs
   * its cell.
   */
  function BlitRow(d: Drawn, bits: u8, x0: u8, y0: u8, row: nat, c: nat): (r: Drawn)
    requires |d.screen| == ScreenSize && c <= 8 && RowFits(x0, y0, row)
    ensures |r.screen| == ScreenSize
    decreases c
  {
    if c == 0 then d
    else
      var prev := BlitRow(d, bits, x0, y0, row, c - 1);
      var pixel := SpriteBit(bits, c - 1);
      var index := CellIndex(x0, y0, row, c - 1);
      Drawn(prev.screen[index := prev.screen[index] != pixel], pixel && prev.screen[index])
  }

  /** The first `r` rows of the outer DXYN loop, starting from a cleared flag. */
  function Blit(gfx: seq<bool>, rows: seq<u8>, x0: u8, y0: u8, r: nat): (d: Drawn)
    requires |gfx| == ScreenSize && r <= |rows| && SpriteFits(x0, y0, |rows|)
    ensures |d.screen| == ScreenSize
    decreases r
  {
    if r == 0 then Drawn(gfx, false)
    else
      assert RowFits(x0, y0, r - 1);
      BlitRow(Blit(gfx, rows, x0, y0, r - 1), rows[r - 1], x0, y0, r - 1, 8)
  }

  /** The sprite DXYN draws: `n` rows read from `memory[0..n)`, as written (not from I). */
  function SpriteRows(s: State, n: Nibble): seq<u8>
    requires s.WellFormed()
  {
    s.memory[..n]
  }

  /** The lowest pressed key at or after `from`: the scan of FX0A. */
  function FirstDown(keys: seq<bool>, from: nat): (k: nat)
    requires from <= |keys| && exists j :: from <= j < |keys| && keys[j]
    ensures from <= k < |keys| && keys[k]
    ensures forall j :: from <= j < k ==> !keys[j]
    decreases |keys| - from
  {
    if keys[from] then from else FirstDown(keys, from + 1)
  }

  /** What `sc8_step` needs of the state to run `ins` without undefined behaviour. */
  predicate Defined(s: State, ins: Instr)
    requires s.WellFormed()
  {
    match ins
    case Ret => s.sp < 16
    case Call(_) => s.sp < 16
    case Draw(x, y, n) => SpriteFits(s.v[x], s.v[y], n)
    case SkipKeyDown(x) => s.v[x] < 16
    case SkipKeyUp(x) => s.v[x] < 16
    case WaitKey(_) => exists k :: 0 <= k < 16 && s.key[k]
    case StoreBcd(_) => s.i + 2 < MemorySize
    case StoreRegs(x) => x == 0 || s.i + x <= MemorySize
    case LoadRegs(x) => x == 0 || s.i + x <= MemorySize
    case _ => true
  }

  /** 00E0, 00EE, 1NNN, 2NNN, BNNN, FXFF and the unknown opcodes: the screen clear and the jumps. */
  predicate IsControl(ins: Instr)
  {
    ins.Cls? || ins.Ret? || ins.Jump? || ins.Call? || ins.JumpOffset? || ins.Spin? || ins.Unknown?
  }

  /** The instructions that either fall through or skip the next opcode. */
  predicate IsSkip(ins: Instr)
  {
    ins.SkipEqImm? || ins.SkipNeImm? || ins.SkipEqReg? || ins.SkipNeReg? ||
    ins.SkipKeyDown? || ins.SkipKeyUp?
  }

  /** The instructions that use I or write memory or the display. */
  predicate IsMemory(ins: Instr)
  {
    ins.LoadIndex? || ins.AddIndex? || ins.FontGlyph? || ins.Draw? ||
    ins.StoreBcd? || ins.StoreRegs? || ins.LoadRegs?
  }

  /**
   * One instruction of `sc8_step`, between the fetch and the timer tick.
   * `rnd` is the low byte of the generator word CXKK draws.
   */
  function Execute(s: State, ins: Instr, rnd: u8): (r: State)
    requires s.WellFormed() && s.pc <= MaxFetch && Defined(s, ins)
    ensures r.WellFormed()
  {
    if IsControl(ins) then ExecuteControl(s, ins)
    else if IsSkip(ins) then ExecuteSkip(s, ins)
    else if IsMemory(ins) then ExecuteMemory(s, ins)
    else ExecuteRegister(s, ins, rnd)
  }

  /** The screen clear, the jumps, CALL and RET, FXFF and the unknown opcodes. */
  function ExecuteControl(s: State, ins: Instr): (r: State)
    requires s.WellFormed() && s.pc <= MaxFetch && Defined(s, ins) && IsControl(ins)
    ensures r.WellFormed()
  {
    match ins
    case Cls => s.(gfx := seq(ScreenSize, _ => false), drawFlag := true, pc := s.pc + 2)
    case Ret => s.(pc := s.stack[s.sp] as int + 2, sp := (s.sp as int - 1) % 256)
    case Jump(nnn) => s.(pc := nnn)
    case Call(nnn) => s.(stack := s.stack[s.sp := s.pc % 256], sp := s.sp + 1, pc := nnn)
    case JumpOffset(nnn) => s.(pc := nnn + s.v[0])
    case Spin => s
    // the eight family adds 2 in its `default` and 2 more after its switch
    case Unknown(op) => s.(pc := s.pc + if Family(op) == 0x8 then 4 else 2)
  }

  /** 3XKK, 4XKK, 5XY_, 9XY_, EX9E and EXA1: `pc` moves by 4 when the test holds, by 2 otherwise. */
  function ExecuteSkip(s: State, ins: Instr): (r: State)
    requires s.WellFormed() && s.pc <= MaxFetch && Defined(s, ins) && IsSkip(ins)
    ensures r.WellFormed()
  {
    match ins
    case SkipEqImm(x, kk) => s.(pc := s.pc + if s.v[x] == kk then 4 else 2)
    case SkipNeImm(x, kk) => s.(pc := s.pc + if s.v[x] != kk then 4 else 2)
    case SkipEqReg(x, y) => s.(pc := s.pc + if s.v[x] == s.v[y] then 4 else 2)
    case SkipNeReg(x, y) => s.(pc := s.pc + if s.v[x] != s.v[y] then 4 else 2)
    case SkipKeyDown(x) => s.(pc := s.pc + if s.key[s.v[x]] then 4 else 2)
    case SkipKeyUp(x) => s.(pc := s.pc + if !s.key[s.v[x]] then 4 else 2)
  }

  /** ANNN, FX1E, FX29, DXYN, FX33, FX55 and FX65. */
  function ExecuteMemory(s: State, ins: Instr): (r: State)
    requires s.WellFormed() && s.pc <= MaxFetch && Defined(s, ins) && IsMemory(ins)
    ensures r.WellFormed()
  {
    match ins
    case LoadIndex(nnn) => s.(i := nnn, pc := s.pc + 2)
    case AddIndex(x) => s.(i := (s.i + s.v[x]) % 0x1_0000, pc := s.pc + 2)
    case FontGlyph(x) => s.(i := s.v[x] as int * 5, pc := s.pc + 2)
    case Draw(x, y, n) =>
      var d := Blit(s.gfx, SpriteRows(s, n), s.v[x], s.v[y], n);
      s.(gfx := d.screen, v := s.v[Flag := Bool8(d.collision)],
         drawFlag := true, pc := s.pc + 2)
    case StoreBcd(x) => s.(memory := WriteBcd(s.memory, s.i, s.v[x]), pc := s.pc + 2)
    case StoreRegs(x) => s.(memory := Dump(s.memory, s.v, s.i, x), pc := s.pc + 2)
    case LoadRegs(x) => s.(v := Restore(s.v, s.memory, s.i, x), pc := s.pc + 2)
  }

  /** 6XKK, 7XKK, the 8XY_ family, CXKK, FX07, FX0A, FX15 and FX18. */
  function ExecuteRegister(s: State, ins: Instr, rnd: u8): (r: State)
    requires s.WellFormed() && s.pc <= MaxFetch && Defined(s, ins)
    requires !IsControl(ins) && !IsSkip(ins) && !IsMemory(ins)
    ensures r.WellFormed()
  {
    match ins
    case LoadImm(x, kk) => s.(v := s.v[x := kk], pc := s.pc + 2)
    case AddImm(x, kk) => s.(v := s.v[x := (s.v[x] + kk) % 256], pc := s.pc + 2)
    case Alu(alu, x, y) => s.(v := AluResult(s.v, alu, x, y), pc := s.pc + 2)
    case Random(x, kk) => s.(v := s.v[x := And8(rnd, kk)], pc := s.pc + 2)
    case ReadDelay(x) => s.(v := s.v[x := s.dt], pc := s.pc + 2)
    case WaitKey(x) => s.(v := s.v[x := FirstDown(s.key, 0)], pc := s.pc + 2)
    case SetDelay(x) => s.(dt := s.v[x], pc := s.pc + 2)
    case SetSound(x) => s.(st := s.v[x], pc := s.pc + 2)
  }

  /**
   * The end of every step: each timer counts down by one unless it is zero.
   * No timer ever rises, one that is running drops by exactly one, and one
   * that has reached zero stays there; nothing else changes.
   */
  function Tick(s: State): (r: State)
    ensures r == s.(dt := r.dt, st := r.st)
    ensures r.dt <= s.dt && r.st <= s.st && r.dt + 1 >= s.dt && r.st + 1 >= s.st
    ensures (r.dt == s.dt <==> s.dt == 0) && (r.st == s.st <==> s.st == 0)
  {
    s.(dt := if s.dt > 0 then s.dt - 1 else s.dt, st := if s.st > 0 then s.st - 1 else s.st)
  }

  /** The instruction word at `pc`: big-endian, high byte at `pc`, low byte at `pc + 1`. */
  function FetchedWord(s: State): (op: u16)
    requires s.WellFormed() && s.pc <= MaxFetch
    ensures op / 256 == s.memory[s.pc] && op % 256 == s.memory[s.pc + 1]
  {
    Fetch(s.memory[s.pc], s.memory[s.pc + 1])
  }

  /** The instruction a step from `s` runs. */
  function Next(s: State): Instr
    requires s.WellFormed() && s.pc <= MaxFetch
  {
    Decode(FetchedWord(s))
  }

  /** The state right after the fetch and the host's key refresh. */
  function Fetched(s: State, keys: seq<bool>): State
    requires s.WellFormed() && s.pc <= MaxFetch && |keys| == 16
  {
    s.(opcode := FetchedWord(s), key := keys)
  }

  /** The step from `s` has defined behaviour when the host reports `keys`. */
  predicate Ready(s: State, keys: seq<bool>)
  {
    s.WellFormed() && |keys| == 16 && s.pc <= MaxFetch &&
    Defined(Fetched(s, keys), Next(s))
  }

  /** What one step produces: the state, the generator word, the return value, whether it beeped. */
  datatype Outcome = Outcome(next: State, seed: bv32, known: bool, beep: bool)

  /**
   * `sc8_step`: fetch, refresh keys, execute, tick. `seed` is the generator word;
   * only CXKK advances it.
   */
  function StepSpec(s: State, keys: seq<bool>, seed: bv32): (o: Outcome)
    requires Ready(s, keys)
    ensures o.next.WellFormed() && o.next.opcode == FetchedWord(s) && o.next.key == keys
    ensures o.known <==> !Next(s).Unknown?
  {
    var ins := Next(s);
    var seed' := if ins.Random? then XorShift(seed) else seed;
    var done := Execute(Fetched(s, keys), ins, LowByte(seed'));
    Outcome(Tick(done), seed', !ins.Unknown?, done.st > 0)
  }
}

=== FILE: xorrand.dfy ===
/**
 * The 32-bit xorshift generator `sc8_xorRand` behind `sc8_defRand`. The C code
 * keeps its word in the process-wide `sc8_xorRandState`; here that word is the
 * field of a `Generator` object that the interpreter is handed.
 */
module XorRand {

  /** The initial value of `sc8_xorRandState`. */
  const Seed: bv32 := 305419896

  /** `s ^= s << 13` */
  function Mix13(s: bv32): bv32
  {
    s ^ (s << 13)
  }

  /** `s ^= s >> 17` */
  function Mix17(s: bv32): bv32
  {
    s ^ (s >> 17)
  }

  /** `s ^= s << 5` */
  function Mix5(s: bv32): bv32
  {
    s ^ (s << 5)
  }

  /** The successor of a generator word: the three shift-and-xor steps in order. */
  function XorShift(s: bv32): bv32
  {
    Mix5(Mix17(Mix13(s)))
  }

  /**
   * The generator never falls into the all-zero word, from which it could not
   * leave; so from any non-zero seed, such as `Seed`, every output is non-zero.
   */
  lemma XorShiftNonZero(s: bv32)
    requires s != 0
    ensures XorShift(s) != 0
  {
  }

  /** The `(uint8_t)` cast of a generator output: its low byte, the word modulo 256. */
  function LowByte(r: bv32): (b: int)
    ensures 0 <= b < 256 && b == (r % 256) as int
  {
    assert r & 0xFF == r % 256;
    (r & 0xFF) as int
  }

  /** The holder of `sc8_xorRandState`. */
  class Generator {
    var state: bv32

    /** The word as the program starts with it. */
    constructor ()
      ensures state == Seed
    {
      state := Seed;
    }

    /** `sc8_xorRand`: advance the word and return the new word. */
    method Next() returns (r: bv32)
      modifies this
      ensures state == XorShift(old(state)) && r == state
    {
      state := Mix13(state);
      state := Mix17(state);
      state := Mix5(state);
      r := state;
    }
  }
}
